=== FILE: README.md ===
# booksr core, modelled in Dafny

booksr is a bookmarking web app. This project models the logic of its
interactive core and proves properties of it:

- **SmoothCaret** (`smooth_caret.dfy`) — the text input that draws its own
  caret. The input's text goes into a hidden mirror span, with spaces made
  no-break. The caret x-position is the mirror's width minus the input's
  horizontal scroll, clamped inside the 20 px paddings. The native caret is
  pinned to the end of the value, and the drawn caret exists only while
  the input has focus.
- **Search** (`search.dfy`) — the search bar's tag picker:
  - the chosen labels (`tagList`) and the options still offered
    (`availableTags`);
  - the `/` shortcut, choosing an option and removing a chosen label;
  - the Enter key, which submits the trimmed URL with the chosen labels.
- **TagsRoute** (`tags_route.dfy`) — `GET /api/tags`. It flattens every
  bookmark's `tags` column, trims, drops blanks and merges duplicates, then
  sorts the tags and answers one `", "`-joined plain-text line.
- **BookmarkUtils** (`bookmark_utils.dfy`) — what both bookmark cards share:
  - the bookmark record and the calls a card makes outward;
  - `displayUrlOnHover`, the resting URL label (`formattedUrl`) and
    `getFormattedDate`.

  The two card files hold identical copies of these helpers; they are
  modelled once.
- **Bookmark** (`bookmark.dfy`) — the card in use: a view row, and an edit
  form opened from the favicon with Save, Cancel and Enter.
- **BookmarkOld** (`bookmark_old.dfy`) — the archived card. Its title and URL
  are edited in place (`editingState`) when opened with the Option key held.
  A second row lists the tags (`tagsRowExpanded`), with an input for adding
  one (`handleNewTag`).
- **Strings**, **Seqs**, **Wrappers** — the JavaScript string primitives the
  components use, sequence helpers, and `Option`:
  - `trim` and the `\s` class;
  - `split` and `join`;
  - the integer subset of `Number(...)`.

Each component is a pure state machine: a state datatype, an event
datatype, a `Step` function and a `Run` over a sequence of events. What
the two bookmark cards hand to their parent or to the browser is a list of
`Effect` values: the edit, delete and tag callbacks, the clipboard write,
following a link and moving the focus. The search bar instead returns a
`KeyOutcome` for the `/` key (open the picker, suppress the character,
focus the main input) and, on Enter, an optional submission of the chosen
labels and the trimmed URL. SmoothCaret makes no outward call; it only
updates its own state and the input's selection. DOM readings are parameters:
`scrollLeft`, `clientWidth`, the mirror's text width, and the outcome of
`new URL(...)`.

## Model

| member | source | states |
|---|---|---|
| SmoothCaret.ToMirrorText | SmoothCaret.tsx:18-20 | The mirror text has the value's length. It holds no plain space: each space becomes U+00A0 and every other character stays where it was. |
| SmoothCaret.MirrorTextIdempotent | SmoothCaret.tsx:19-20 | Mirroring an already mirrored text changes nothing. |
| SmoothCaret.MirrorTextConcat | SmoothCaret.tsx:19-20 | Mirroring distributes over concatenation, so a run of spaces is preserved wherever it sits, trailing runs included. |
| SmoothCaret.MirrorTextEqualIff | SmoothCaret.tsx:19-20 | Two values mirror alike exactly when they have the same length and differ only where one has a space and the other a no-break space. |
| SmoothCaret.CaretLeft | SmoothCaret.tsx:14-16 | The clamp never goes left of the 20 px left padding. It never goes right of `clientWidth` minus the 20 px right padding when the input is wide enough. Between the bounds it is exactly width minus scroll. |
| SmoothCaret.CaretLeftMonotoneInWidth | SmoothCaret.tsx:41-49 | With the other readings fixed, wider text never moves the caret left. |
| SmoothCaret.CaretLeftAntitoneInScroll | SmoothCaret.tsx:44-49 | Scrolling further right never moves the caret right. |
| SmoothCaret.CaretFollowsScroll | SmoothCaret.tsx:44-49 | While neither clamp bites, scrolling by d moves the caret by exactly -d. |
| SmoothCaret.OffsetWidth | SmoothCaret.tsx:41-42 | The mirror's width includes its left padding, so it is at least 20. |
| SmoothCaret.Measure | SmoothCaret.tsx:34-52 | With either ref unset, `caretX` keeps its value. Otherwise the caret is the clamp of the mirrored text's width, so it lies inside the paddings. |
| SmoothCaret.MeasureIdempotent | SmoothCaret.tsx:34-52 | Measuring twice with the same readings gives the same caret as once. |
| SmoothCaret.EmptyValueCaretAtPadding | SmoothCaret.tsx:34-52 | An empty, unscrolled input puts the caret at the left padding. |
| SmoothCaret.FittingTextCaretAfterText | SmoothCaret.tsx:34-52 | Text that fits in an unscrolled input puts the caret right after the text. |
| SmoothCaret.PlaceNativeCaretAtEnd | SmoothCaret.tsx:22-32 | An unset ref is left alone. Otherwise the selection collapses to the end of the value and nothing else changes; an element that refuses the selection (the swallowed throw) keeps its selection. |
| SmoothCaret.PlaceNativeCaretAtEndIdempotent | SmoothCaret.tsx:22-32 | Pinning the caret twice is pinning it once. |
| SmoothCaret.Step | SmoothCaret.tsx:54-82 | Change stores the value and pins the caret. Focus shows the caret, pins it and measures. Blur only hides the caret. Scroll, resize and mount measure. A measurement never leaves the caret inside the padding. |
| SmoothCaret.RunKeepsCaretInPadding | SmoothCaret.tsx:54-82 | After any event sequence, `caretX` is either its initial 0 or at least the left padding. |
| SmoothCaret.FocusShowsBlurHides | SmoothCaret.tsx:74-82 | The drawn caret is rendered after focus and is gone after blur, whatever the state before. |
| SmoothCaret.ChangeWhileFocused | SmoothCaret.tsx:54-58 | Typing while focused keeps the caret drawn and inside the input once measured. |
| Search.FindByValue | components/Search.tsx:247-249 | `find` by value yields the first member with that value, and yields nothing exactly when no member has it. |
| Search.FindByLabel | components/Search.tsx:76 | `find` by label yields the first member with that label, and yields nothing exactly when no member has it. |
| Search.DropValue | components/Search.tsx:264-266 | The filter keeps exactly the options with another value and keeps them duplicate-free. |
| Search.DropLabel | components/Search.tsx:73 | The filter keeps exactly the other labels, leaves the list unchanged when the label is absent, and keeps it duplicate-free. |
| Search.Select | components/Search.tsx:246-275 | An unknown value only closes the picker. Otherwise the option's label is appended unless already chosen, and every option with its value leaves the offer. The highlight is cleared, the picker closes, and `tagList` stays duplicate-free. |
| Search.RemoveTag | components/Search.tsx:72-81 | Every occurrence of the label leaves `tagList`. The first `tags` option with that label is offered again, at the end, unless an option with its value already is. A label no option has leaves the offer unchanged. |
| Search.SlashKey | components/Search.tsx:44-66 | Other keys, or an open picker, do nothing. In the main input, `/` opens the picker (and suppresses the character) only at position 0 or right after whitespace. Elsewhere it moves focus to the main input. |
| Search.EnterKey | components/Search.tsx:155-161 | A submission happens exactly on Enter with the picker closed and a non-blank input. It carries the chosen labels and the trimmed input. |
| Search.SubmittedUrlIsTrimmed | components/Search.tsx:159-161 | The submitted URL is never empty and is its own trim. |
| Search.InitInv | components/Search.tsx:37-39 | The initial state satisfies the picker invariant. |
| Search.SelectKeepsInv | components/Search.tsx:246-275 | Choosing keeps the invariant: labels stay distinct, and an option is offered exactly when its label is not chosen. |
| Search.RemoveTagKeepsInv | components/Search.tsx:72-81 | Removing keeps the same invariant. |
| Search.StepKeepsInv | components/Search.tsx:44-81 | Every event keeps the invariant. |
| Search.RunKeepsInv | components/Search.tsx:37-81 | From the initial state, after any events, `tagList` has no duplicate, and the two lists are complementary over the `tags` prop. |
| Search.SelectThenRemove | components/Search.tsx:72-81 | Choosing an offered option and then removing its label gives back lists with the original contents. |
| Strings.Trim | app/api/tags/route.ts:29-30 | `trim` leaves no whitespace at either end. It is empty exactly for an all-whitespace string, and it is the string minus a whitespace prefix and suffix. |
| Strings.TrimIdempotent | app/api/tags/route.ts:29-30 | Trimming twice is trimming once. |
| Strings.Split | components/Bookmark.tsx:26 | `split` on a non-empty separator gives at least one piece. Joining the pieces back gives the string, and no piece holds the separator. The first piece ends at the first occurrence of the separator, and a string without one is its own single piece. |
| Strings.SplitJoin | components/Bookmark.tsx:124 | Splitting a join gives back the pieces when none holds the separator's first character. |
| Strings.ToNumber | components/Bookmark.tsx:36-43 | `Number(undefined)` is NaN, a blank string is 0, and a digit string is its decimal value. |
| Strings.NumberOfShowNat | components/Bookmark.tsx:36-43 | `Number` reads back the decimal rendering of any natural number up to 2^53, the range a double holds exactly. |
| TagsRoute.BookmarkTags | app/api/tags/route.ts:14-26 | An array column is used as is. A string column contributes its parsed array, or nothing when it does not parse to an array. Any other column contributes nothing. |
| TagsRoute.ElementTag | app/api/tags/route.ts:28-32 | An element yields a tag exactly when it is a non-blank string; the tag is its trim, non-empty and clean. |
| TagsRoute.AddTag | app/api/tags/route.ts:29-31 | After the add, the set holds exactly what it held plus the tag the element emits. |
| TagsRoute.AddTagKeeps | app/api/tags/route.ts:12 | The add keeps the set duplicate-free and clean. |
| TagsRoute.AddAll | app/api/tags/route.ts:28-32 | After a row's loop, the set holds exactly the old tags plus every tag some element of the row emits. |
| TagsRoute.AddAllKeeps | app/api/tags/route.ts:28-32 | A row's loop keeps the set duplicate-free and clean. |
| TagsRoute.Collect | app/api/tags/route.ts:13-33 | After the outer loop, the set holds exactly the tags some row emits. |
| TagsRoute.CollectKeeps | app/api/tags/route.ts:13-33 | The outer loop keeps the set duplicate-free and clean. |
| TagsRoute.LessTransitive | app/api/tags/route.ts:35-37 | The comparison is transitive. |
| TagsRoute.LessTotal | app/api/tags/route.ts:35-37 | Any two distinct strings are ordered one way or the other. |
| TagsRoute.Insert | app/api/tags/route.ts:35-37 | Insertion into a sorted list keeps it sorted and adds exactly one occurrence of the element. |
| TagsRoute.Sort | app/api/tags/route.ts:35-37 | The result is sorted and is a permutation of the input. |
| TagsRoute.SortedUnique | app/api/tags/route.ts:35-37 | Two ascending arrangements of the same multiset are equal, so the output does not depend on the order in which the tags were met. |
| TagsRoute.TagListSpec | app/api/tags/route.ts:12-37 | The emitted list is clean, duplicate-free and strictly ascending. A tag is in it exactly when some row holds a string element whose trim it is. |
| TagsRoute.RowCompleteness | app/api/tags/route.ts:28-32 | Any non-blank string element of any row is listed, trimmed. |
| TagsRoute.Get | app/api/tags/route.ts:4-48 | A query error is a 500 with its message. A throw is a 500 with the thrown message, or "Failed to load tags" when it is missing or empty. Rows give plain text exactly, the `", "`-joined tag list, and null data gives an empty body. |
| TagsRoute.EmptyBody | app/api/tags/route.ts:13-38 | Rows without usable tags give an empty body: no elements, or only blank strings and non-strings. |
| TagsRoute.BodySplitsBack | app/api/tags/route.ts:38-42 | Splitting the body on `", "` gives the tag list back when the list is non-empty and no tag holds a comma. |
| TagsRoute.EmptyBodySplitsToBlank | app/api/tags/route.ts:38-42 | An empty tag list does not split back: its empty body splits into one empty piece. |
| BookmarkUtils.PrefixMatchSplits | components/Bookmark.tsx:48 | A match of `/^(https?:\/\/)?(www\.)?/` cuts the URL into scheme, `www.` and the rest. |
| BookmarkUtils.CleanUrl | components/Bookmark.tsx:48 | The cleaned URL is the rest after a greedy match of the optional scheme and optional `www.`. |
| BookmarkUtils.CleanUrlUnique | components/Bookmark.tsx:48 | That match is unique, so any greedy cut yields exactly the cleaned URL. |
| BookmarkUtils.DisplayUrlOnHover | components/Bookmark.tsx:47-58 | The hover label is the cleaned URL, plus `/` exactly when the URL parses, its path is `/` and the cleaned text lacks a trailing `/`. It ends in `/` whenever the path is `/`. |
| BookmarkUtils.FormattedUrl | components/Bookmark.tsx:74-80 | An unparsable URL shows as is. Otherwise the label is the host name without a leading `www.`, followed by `/`. |
| BookmarkUtils.CleanOrigin | components/Bookmark.tsx:48 | Cleaning a bare `http(s)://host/` URL leaves the host without a leading `www.`, then `/`. |
| BookmarkUtils.HoverMatchesRestingForOrigin | components/Bookmark.tsx:47-80 | For a bare `http(s)://host/` URL whose host is lower-case letters, digits, dots and hyphens, and which the parser reads back as that host and the path `/`, the hovered and resting labels are equal: the host without a leading `www.`, then `/`. |
| BookmarkUtils.GetFormattedDate | components/Bookmark.tsx:25-45 | The raw string goes to the fallback exactly when splitting on `", "` leaves an empty date half or no time half. |
| BookmarkUtils.FormattedDateOfNumbers | components/Bookmark.tsx:34-43 | A stamp `d/m/y, h:mi:s` written from numbers up to 2^53 reads back as those numbers, with the month made zero-based. |
| BookmarkUtils.FormattedDateFallback | components/Bookmark.tsx:26-33 | A string without `", "` goes to the fallback whole. |
| Bookmark.Init | components/Bookmark.tsx:83-96 | A new card is collapsed, viewing and unhovered, with buffers holding the bookmark's title and URL. |
| Bookmark.Commit | components/Bookmark.tsx:199-205 | A commit makes one edit call with the buffers and closes the form, changing nothing else. |
| Bookmark.Step | components/Bookmark.tsx:88-225 | Only new props change the bookmark. Only typing into the open form changes a buffer. A call happens exactly for an enabled delete, a title click while viewing, or Save/Enter while editing. The form toggles exactly on a favicon click while viewing, or Cancel/Save/URL Enter while editing. |
| Bookmark.SaveCommitsWhatWasTyped | components/Bookmark.tsx:130-225 | Open, type a title and a URL, Save: exactly one edit call carrying the typed text, and the form closes. |
| Bookmark.TitleEnterMovesFocus | components/Bookmark.tsx:178-183 | Enter in the title input moves the focus to the URL input and commits nothing. |
| Bookmark.UrlEnterIsSave | components/Bookmark.tsx:199-205 | Enter in the URL input is the same as Save. |
| Bookmark.CancelKeepsBuffers | components/Bookmark.tsx:216 | Cancel makes no call, and reopening the form shows the abandoned edits. |
| Bookmark.StaleBuffersAfterProps | components/Bookmark.tsx:95-96 | After the parent changes the bookmark, Save sends the title and URL the card was mounted with. |
| Bookmark.RunOnlyOwnEffects | components/Bookmark.tsx:61-235 | Whatever happens, the card only edits, deletes, follows its title link or moves focus. It never adds or removes a tag or writes the clipboard. |
| Bookmark.StepCallsNameShownBookmark | components/Bookmark.tsx:135-225 | A delete comes only from the enabled cross, an edit only from the open form and a followed link only from the title of the view row. Each names the bookmark shown, the edit with the current buffers. |
| Bookmark.TooltipSplitsBack | components/Bookmark.tsx:124 | The row's tooltip splits back into the tags when there is at least one and none holds a comma. |
| Bookmark.TooltipOfNoTags | components/Bookmark.tsx:124 | Without tags the tooltip splits into one empty piece, not into no tags. |
| BookmarkOld.Init | components/archive/BookmarkOld.tsx:82-91 | A new card is collapsed, not editing, without Option, with buffers holding the bookmark's title and URL and an empty tag input. |
| BookmarkOld.TrackOption | components/archive/BookmarkOld.tsx:99-113 | Option is held after a keydown with Alt, released after a keyup without Alt, and unchanged otherwise; nothing else changes. |
| BookmarkOld.StartEditing | components/archive/BookmarkOld.tsx:128-139 | Opening a field reloads both buffers from the bookmark. |
| BookmarkOld.EnterTitleEditMode | components/archive/BookmarkOld.tsx:123-132 | With Option held, a title click opens the title field without a call. Otherwise the browser follows the link. |
| BookmarkOld.EnterUrlEditMode | components/archive/BookmarkOld.tsx:134-143 | With Option held, the URL field opens. Otherwise the URL is written to the clipboard. |
| BookmarkOld.HandleEditKeyDown | components/archive/BookmarkOld.tsx:145-154 | Enter commits both buffers and closes the field. Escape closes without a call. Other keys do nothing. |
| BookmarkOld.HandleNewTag | components/archive/BookmarkOld.tsx:164-169 | The tag input always closes and clears. A tag is added exactly when the text is not blank, and it is the trimmed text. |
| BookmarkOld.NewTagIsClean | components/archive/BookmarkOld.tsx:165-166 | A tag sent is non-empty with no whitespace at either end. |
| BookmarkOld.NewTagIsTrimmed | components/archive/BookmarkOld.tsx:165-166 | Typing the trimmed text sends the same tag as typing the untrimmed one. |
| BookmarkOld.TagInputCloses | components/archive/BookmarkOld.tsx:288-296 | On the open tag input, Escape or blur closes it and clears it, and adds no tag. |
| BookmarkOld.Resync | components/archive/BookmarkOld.tsx:93-97 | New props replace the bookmark. The buffers reload exactly when the title or the URL changed, and are otherwise kept. |
| BookmarkOld.Handle | components/archive/BookmarkOld.tsx:116-309 | No element handler changes the Option flag. |
| BookmarkOld.OptionTracking | components/archive/BookmarkOld.tsx:99-113 | Alt down on any keydown sets the flag, and a keyup without Alt clears it. Other events keep it. |
| BookmarkOld.HandleNeverExpands | components/archive/BookmarkOld.tsx:116-121 | No handler expands the card, and the tag input opens only from the `+` of an open tags row. |
| BookmarkOld.StepKeepsDormant | components/archive/BookmarkOld.tsx:171-172 | A collapsed card not adding a tag stays so. Its tags row is closed and it never adds, removes or deletes. |
| BookmarkOld.RunFromDormant | components/archive/BookmarkOld.tsx:171-309 | The same holds over any sequence of events. |
| BookmarkOld.TagRowNeverShown | components/archive/BookmarkOld.tsx:83-121 | From mount, the tags row is never shown and the card never adds or removes a tag nor deletes its bookmark: nothing sets `isExpanded`. |
| BookmarkOld.EditNeedsOption | components/archive/BookmarkOld.tsx:123-143 | Without Option, clicks never open a field. The title follows its link and the URL is copied. |
| BookmarkOld.StepEditChange | components/archive/BookmarkOld.tsx:193-212 | Typing in the open field changes only that field's buffer. |
| BookmarkOld.StepEditKey | components/archive/BookmarkOld.tsx:198-208 | A key in the open field is exactly the edit handler's, with Option still held or already released. |
| BookmarkOld.ReopenStartsFresh | components/archive/BookmarkOld.tsx:123-154 | After Escape, reopening the title shows the bookmark's own title, not the abandoned text. |
| BookmarkOld.TitleEditCommits | components/archive/BookmarkOld.tsx:123-154 | Option-click the title, type, Enter: one edit call with the typed title and the bookmark's own URL, and the field closes. |
| BookmarkOld.TitleEditCommitsAfterRelease | components/archive/BookmarkOld.tsx:99-154 | Option-click the title, release Alt, type, Enter: the same single edit call with the typed title and the bookmark's own URL, and the field closes. |
| BookmarkOld.BlurCancels | components/archive/BookmarkOld.tsx:199-209 | Blurring the open field closes it without a call. |

## Left out

- The Supabase query is not modelled. Its three outcomes (an error, rows or null data, a throw) are the input of `TagsRoute.Get`.
- `JSON.parse` is not modelled. A string column arrives together with what parsing made of it, or nothing when it threw.
- `new URL(...)` is not modelled. The host name and path it would yield are a parameter, absent for a URL that does not parse.
- TagsRoute.Less: `localeCompare` is modelled as code-point lexicographic order. Locale collation depends on the runtime's ICU data, so the model's order can differ for mixed case or accents. `localeCompare` can also return 0 for distinct, canonically equivalent strings; the stable sort then keeps the `Set`'s insertion order, so `TagsRoute.SortedUnique` (the output does not depend on the order tags were met) holds for the model's total order only.
- BookmarkUtils.GetFormattedDate: ends at what is handed to the `Date` constructor. `Date` and `toLocaleString("en-US", …)` depend on the time zone and locale data and are left out, so the label text itself is not modelled.
- Strings.ToNumber: models `Number` for blank strings, an optional sign and ASCII digits. Decimals, exponents, `0x`/`0o`/`0b` literals and `Infinity` are read as NaN, although JavaScript reads them as numbers. Digit strings above 2^53 keep their exact value, while JavaScript rounds them to the nearest double. The date stamps the cards expect use only short digit strings.
- Strings.NumberOfShowNat and BookmarkUtils.FormattedDateOfNumbers: stated only up to 2^53, because above it `Number` rounds and the read-back is not exact in JavaScript.
- Search.SlashKey: `value` is a sequence of Unicode code points and the caret position counts code points. The browser's `selectionStart` and `value[caretPos - 1]` count UTF-16 code units, so the two agree only for text with no character above U+FFFF.
- SmoothCaret.PlaceNativeCaretAtEnd: the end position is the value's length in code points. The source's `el.value.length` counts UTF-16 code units, so the two agree only for text with no character above U+FFFF.
- BookmarkUtils.HoverMatchesRestingForOrigin: takes as a premise that the parser reads the URL back as its own host text and the path `/`. The host is restricted to lower-case letters, digits, dots and hyphens, which rules out case folding, ports and credentials. Hosts the parser rewrites anyway are not excluded, such as those ending in a number (read as IPv4) or malformed `xn--` labels; for those the premise does not describe the real parse.
- `requestAnimationFrame`: its deferral of `placeNativeCaretAtEnd` is folded into the event that schedules it. Frames are not interleaved with other events.
- DOM layout is an input. The mirror's text width is a function, and `scrollLeft` and `clientWidth` are integers; sub-pixel widths and fonts are not modelled.
- Animations, springs, `transitionDelay` from `index`, styles, `console.log` and JSX markup carry no logic and are left out.
- Search's viewport-size effect (`isMobileViewport`) and the commented-out mobile tag list are left out; neither changes the picker.
- Search's `onOpenChange` focus timer and the `setTimeout` focus calls are left out; only the open flag is modelled.
- BookmarkOld's effect that focuses the tag input when it opens (lines 159-162) is left out: it only moves the focus.
- Search.RunKeepsInv: the `tags` prop is taken as fixed for the component's life. `availableTags` is seeded from the prop at mount (components/Search.tsx:39), while `removeTag` reads the prop current at the call (components/Search.tsx:76), so a parent that passed a different list would break the complement. The one caller passes the same constant list on every render (app/page.tsx:5-44).
- The picker invariant (`Search.RunKeepsInv`) assumes that no two options of the `tags` prop share a label or a value. The component keys options by value and looks them up by label, and it does not check either.
- Bookmark.ViewRow: the tooltip's `Array.isArray` guard is not modelled, because the record's tags are always a sequence.
- `app/api/bookmarks/route.ts` and the pages are not part of this model.

=== FILE: bookmark.dfy ===
/** The bookmark card in use: a view row (favicon, title link, URL label,
    delete cross, date) and an edit form (title and URL inputs, Cancel,
    Save) that the favicon opens. */
module Bookmark {
  import opened Wrappers
  import Strings
  import opened BookmarkUtils

  /** The card's state. The edit buffers start from the props the card was
      mounted with and are never resynchronised with later props. */
  datatype Card = Card(
    bookmark: BookmarkRecord,
    isExpanded: bool,
    isUrlHovered: bool,
    isEditing: bool,
    newTitle: string,
    newUrl: string)

  function Init(b: BookmarkRecord): (c: Card)
    ensures !c.isEditing && !c.isExpanded && !c.isUrlHovered
    ensures c.newTitle == b.title && c.newUrl == b.url && c.bookmark == b
  {
    Card(b, false, false, false, b.title, b.url)
  }

  /** What the user can do to the card, and the parent re-rendering it. */
  datatype Event =
    | MouseEnter
    | MouseLeave
    | UrlMouseEnter
    | UrlMouseLeave
    | FaviconClick
    | TitleClick
    | DeleteClick
    | TitleChange(value: string)
    | UrlChange(value: string)
    | TitleKeyDown(key: string)
    | UrlKeyDown(key: string)
    | CancelClick
    | SaveClick
    | PropsChanged(next: BookmarkRecord)

  datatype Outcome = Outcome(card: Card, effects: seq<Effect>)

  /** The delete cross takes clicks only while the card is expanded. */
  predicate DeleteEnabled(c: Card) {
    !c.isEditing && c.isExpanded
  }

  /** The commit that Save and Enter in the URL input both make. */
  function Commit(c: Card): (o: Outcome)
    ensures o.effects == [EditBookmark(c.bookmark.id, c.newTitle, c.newUrl)]
    ensures !o.card.isEditing && o.card == c.(isEditing := false)
  {
    Outcome(c.(isEditing := false), [EditBookmark(c.bookmark.id, c.newTitle, c.newUrl)])
  }

  /** One event. An event aimed at an element that is not rendered (the
      edit form while viewing, the view row while editing) or that ignores
      pointer events (the cross while collapsed) changes nothing. */
  function Step(c: Card, e: Event): (o: Outcome)
    ensures o.card.bookmark == (if e.PropsChanged? then e.next else c.bookmark)
    ensures o.card.newTitle == (if e.TitleChange? && c.isEditing then e.value else c.newTitle)
    ensures o.card.newUrl == (if e.UrlChange? && c.isEditing then e.value else c.newUrl)
    ensures o.effects != [] <==>
              (e.DeleteClick? && DeleteEnabled(c))
              || (e.TitleClick? && !c.isEditing)
              || (c.isEditing && (e.SaveClick? || ((e.TitleKeyDown? || e.UrlKeyDown?) && e.key == "Enter")))
    ensures o.card.isEditing != c.isEditing <==>
              (e.FaviconClick? && !c.isEditing)
              || (c.isEditing && (e.CancelClick? || e.SaveClick? || (e.UrlKeyDown? && e.key == "Enter")))
  {
    match e
    case MouseEnter => Outcome(c.(isExpanded := true), [])
    case MouseLeave => Outcome(c.(isExpanded := false), [])
    case UrlMouseEnter => if c.isEditing then Outcome(c, []) else Outcome(c.(isUrlHovered := true), [])
    case UrlMouseLeave => if c.isEditing then Outcome(c, []) else Outcome(c.(isUrlHovered := false), [])
    case FaviconClick => if c.isEditing then Outcome(c, []) else Outcome(c.(isEditing := true), [])
    case TitleClick => if c.isEditing then Outcome(c, []) else Outcome(c, [FollowLink(c.bookmark.url)])
    case DeleteClick =>
      if DeleteEnabled(c) then Outcome(c, [DeleteBookmark(c.bookmark.id)]) else Outcome(c, [])
    case TitleChange(v) => if c.isEditing then Outcome(c.(newTitle := v), []) else Outcome(c, [])
    case UrlChange(v) => if c.isEditing then Outcome(c.(newUrl := v), []) else Outcome(c, [])
    case TitleKeyDown(key) =>
      if c.isEditing && key == "Enter" then Outcome(c, [FocusUrlInput]) else Outcome(c, [])
    case UrlKeyDown(key) =>
      if c.isEditing && key == "Enter" then Commit(c) else Outcome(c, [])
    case CancelClick => if c.isEditing then Outcome(c.(isEditing := false), []) else Outcome(c, [])
    case SaveClick => if c.isEditing then Commit(c) else Outcome(c, [])
    case PropsChanged(b) => Outcome(c.(bookmark := b), [])
  }

  /** Events one after another, the effects in the order they are made. */
  function Run(c: Card, es: seq<Event>): Outcome
    decreases |es|
  {
    if |es| == 0 then Outcome(c, [])
    else
      var first := Step(c, es[0]);
      var rest := Run(first.card, es[1..]);
      Outcome(rest.card, first.effects + rest.effects)
  }

  lemma RunCons(c: Card, e: Event, es: seq<Event>)
    ensures Run(c, [e] + es)
            == Outcome(Run(Step(c, e).card, es).card, Step(c, e).effects + Run(Step(c, e).card, es).effects)
  {
    assert ([e] + es)[0] == e && ([e] + es)[1..] == es;
  }

  /** What the view row shows: the title, the URL label, the date source
      and, as the row's tooltip, the tags joined by ", ". */
  datatype Row = Row(title: string, urlLabel: string, date: DateLabel, tooltip: string)

  function ViewRow(c: Card, parsed: Option<UrlParts>): Row
  {
    Row(c.bookmark.title, UrlLabel(c.bookmark.url, parsed, c.isUrlHovered),
        GetFormattedDate(c.bookmark.createdAt), Strings.Join(c.bookmark.tags, ", "))
  }

  // ---------------------------------------------------------------------
  // Properties

  /** Open the form, type a title and a URL, save: exactly one edit call,
      carrying what was typed, and the form closes. */
  lemma SaveCommitsWhatWasTyped(b: BookmarkRecord, title: string, url: string)
    ensures Run(Init(b), [FaviconClick, TitleChange(title), UrlChange(url), SaveClick])
            == Outcome(Init(b).(newTitle := title, newUrl := url), [EditBookmark(b.id, title, url)])
  {
    var c1 := Init(b).(isEditing := true);
    var c2 := c1.(newTitle := title);
    var c3 := c2.(newUrl := url);
    var done := Outcome(c3.(isEditing := false), [EditBookmark(b.id, title, url)]);
    assert Step(Init(b), FaviconClick) == Outcome(c1, []);
    assert Step(c1, TitleChange(title)) == Outcome(c2, []);
    assert Step(c2, UrlChange(url)) == Outcome(c3, []);
    assert Step(c3, SaveClick) == done;
    RunCons(c3, SaveClick, []);
    assert Run(c3, [SaveClick]) == done;
    RunCons(c2, UrlChange(url), [SaveClick]);
    assert Run(c2, [UrlChange(url), SaveClick]) == done;
    RunCons(c1, TitleChange(title), [UrlChange(url), SaveClick]);
    assert Run(c1, [TitleChange(title), UrlChange(url), SaveClick]) == done;
    RunCons(Init(b), FaviconClick, [TitleChange(title), UrlChange(url), SaveClick]);
  }

  /** Enter in the title input moves the focus to the URL input and
      commits nothing; the form stays open. */
  lemma TitleEnterMovesFocus(c: Card)
    requires c.isEditing
    ensures Step(c, TitleKeyDown("Enter")) == Outcome(c, [FocusUrlInput])
  {
  }

  /** Enter in the URL input commits the same as Save. */
  lemma UrlEnterIsSave(c: Card)
    ensures Step(c, UrlKeyDown("Enter")) == Step(c, SaveClick)
  {
  }

  /** Cancel closes the form without a call, and keeps what was typed:
      opening the form again shows the abandoned edits. */
  lemma CancelKeepsBuffers(c: Card)
    requires c.isEditing
    ensures Step(c, CancelClick).effects == []
    ensures Run(c, [CancelClick, FaviconClick]).card == c
  {
    var es := [CancelClick, FaviconClick];
    assert es[1..] == [FaviconClick];
  }

  /** New props do not refresh the buffers: a save after the parent renamed
      the bookmark sends the title the card was mounted with. */
  lemma StaleBuffersAfterProps(b: BookmarkRecord, b2: BookmarkRecord)
    ensures Run(Init(b), [PropsChanged(b2), FaviconClick, SaveClick]).effects
            == [EditBookmark(b2.id, b.title, b.url)]
  {
    var c1 := Init(b).(bookmark := b2);
    var c2 := c1.(isEditing := true);
    RunCons(c2, SaveClick, []);
    assert Run(c2, [SaveClick]).effects == [EditBookmark(b2.id, b.title, b.url)];
    RunCons(c1, FaviconClick, [SaveClick]);
    assert Run(c1, [FaviconClick, SaveClick]).effects == [EditBookmark(b2.id, b.title, b.url)];
    RunCons(Init(b), PropsChanged(b2), [FaviconClick, SaveClick]);
  }

  /** The card never adds or removes tags or writes the clipboard, whatever
      happens: its tag callbacks go unused. The only link it follows is the
      bookmark's own URL, from the title. */
  ghost predicate OwnEffect(f: Effect) {
    f.EditBookmark? || f.DeleteBookmark? || f.FocusUrlInput? || f.FollowLink?
  }

  lemma {:induction false} RunOnlyOwnEffects(c: Card, es: seq<Event>)
    decreases |es|
    ensures forall i :: 0 <= i < |Run(c, es).effects| ==> OwnEffect(Run(c, es).effects[i])
  {
    if |es| > 0 {
      var first := Step(c, es[0]);
      RunOnlyOwnEffects(first.card, es[1..]);
      var rest := Run(first.card, es[1..]);
      assert Run(c, es).effects == first.effects + rest.effects;
      assert forall i :: 0 <= i < |first.effects| ==> OwnEffect(first.effects[i]);
    }
  }

  /** A delete only comes from the cross while the card is expanded, an
      edit only from the open form, and a followed link only from the title
      of the view row; each names the bookmark shown at that moment, the
      edit with the buffers as they stand. */
  lemma StepCallsNameShownBookmark(c: Card, e: Event)
    ensures forall f :: f in Step(c, e).effects && f.DeleteBookmark? ==>
              e.DeleteClick? && DeleteEnabled(c) && f.id == c.bookmark.id
    ensures forall f :: f in Step(c, e).effects && f.EditBookmark? ==>
              c.isEditing && f == EditBookmark(c.bookmark.id, c.newTitle, c.newUrl)
    ensures forall f :: f in Step(c, e).effects && f.FollowLink? ==>
              e.TitleClick? && !c.isEditing && f.href == c.bookmark.url
  {
  }

  /** The tooltip lists the tags so that splitting it on ", " gives them
      back, provided there is at least one tag and no tag holds a comma. */
  lemma TooltipSplitsBack(c: Card, parsed: Option<UrlParts>)
    requires |c.bookmark.tags| > 0
    requires forall i :: 0 <= i < |c.bookmark.tags| ==> ',' !in c.bookmark.tags[i]
    ensures Strings.Split(ViewRow(c, parsed).tooltip, ", ") == c.bookmark.tags
  {
    Strings.SplitJoin(c.bookmark.tags, ", ");
  }

  /** Without tags the tooltip is empty, and it splits into one empty piece
      rather than no tags. */
  lemma TooltipOfNoTags(c: Card, parsed: Option<UrlParts>)
    ensures c.bookmark.tags == [] ==> Strings.Split(ViewRow(c, parsed).tooltip, ", ") == [""]
  {
    if c.bookmark.tags == [] {
      assert Strings.IndexOf("", ", ", 0).None?;
    }
  }
}

=== FILE: bookmark_old.dfy ===
/** The archived bookmark card: the title and the URL are edited in place,
    opened with the Option (Alt) key held; a second row lists the tags with
    a remove button each and an input to add one. */
module BookmarkOld {
  import opened Wrappers
  import Strings
  import opened BookmarkUtils

  /** Which field is being edited in place (`"none" | "title" | "url"`). */
  datatype EditingState = NotEditing | EditingTitle | EditingUrl

  datatype OldCard = OldCard(
    bookmark: BookmarkRecord,
    isExpanded: bool,
    isAddingTag: bool,
    isOptionHeld: bool,
    editing: EditingState,
    editableTitle: string,
    editableUrl: string,
    isUrlHovered: bool,
    newTagValue: string)

  function Init(b: BookmarkRecord): (c: OldCard)
    ensures c.bookmark == b && c.editing == NotEditing
    ensures !c.isExpanded && !c.isAddingTag && !c.isOptionHeld && !c.isUrlHovered
    ensures c.editableTitle == b.title && c.editableUrl == b.url && c.newTagValue == ""
  {
    OldCard(b, false, false, false, NotEditing, b.title, b.url, false, "")
  }

  /** A key event carries the key and whether Alt was down. Key events in
      the card's inputs also reach the window listener that tracks Alt. */
  datatype Event =
    | WindowKeyDown(altKey: bool)
    | WindowKeyUp(altKey: bool)
    | MouseEnter
    | MouseLeave
    | TitleClick
    | UrlClick
    | UrlKeyDown(key: string, altKey: bool)
    | UrlMouseEnter
    | UrlMouseLeave
    | EditChange(value: string)
    | EditKeyDown(key: string, altKey: bool)
    | EditBlur
    | DeleteClick
    | TagClick(tag: string)
    | PlusClick
    | TagChange(value: string)
    | TagKeyDown(key: string, altKey: bool)
    | TagBlur
    | PropsChanged(next: BookmarkRecord)

  datatype Outcome = Outcome(card: OldCard, effects: seq<Effect>)

  // ---------------------------------------------------------------------
  // What is rendered

  /** The tags row is open: the card is expanded, Option is held or a tag
      is being added, and the bookmark has tags. Its buttons, the "+" and
      the tag input exist only then. */
  predicate TagsRowExpanded(c: OldCard) {
    c.isExpanded && (c.isOptionHeld || c.isAddingTag) && |c.bookmark.tags| > 0
  }

  /** The delete cross takes clicks only while expanded with Option held,
      and exists only while no field is edited. */
  predicate DeleteEnabled(c: OldCard) {
    c.editing == NotEditing && c.isExpanded && c.isOptionHeld
  }

  /** An event that reaches the window's keydown listener with Alt down. */
  predicate AltDown(e: Event) {
    (e.WindowKeyDown? || e.UrlKeyDown? || e.EditKeyDown? || e.TagKeyDown?) && e.altKey
  }

  // ---------------------------------------------------------------------
  // Handlers

  /** The global listeners: keydown with Alt sets the flag, keyup without
      Alt clears it; other key events leave it. */
  function TrackOption(c: OldCard, e: Event): (c': OldCard)
    ensures c'.isOptionHeld == (AltDown(e) || (c.isOptionHeld && !(e.WindowKeyUp? && !e.altKey)))
    ensures c' == c.(isOptionHeld := c'.isOptionHeld)
  {
    if AltDown(e) then c.(isOptionHeld := true)
    else if e.WindowKeyUp? && !e.altKey then c.(isOptionHeld := false)
    else c
  }

  /** Edit mode starts from the bookmark's current title and URL. */
  function StartEditing(c: OldCard, target: EditingState): (c': OldCard)
    requires target != NotEditing
    ensures c'.editing == target
    ensures c'.editableTitle == c.bookmark.title && c'.editableUrl == c.bookmark.url
  {
    c.(editableTitle := c.bookmark.title, editableUrl := c.bookmark.url, editing := target)
  }

  /** A click on the title: with Option held it opens the title for
      editing and stops the link; otherwise the browser follows the link. */
  function EnterTitleEditMode(c: OldCard): (o: Outcome)
    ensures c.isOptionHeld ==> o == Outcome(StartEditing(c, EditingTitle), [])
    ensures !c.isOptionHeld ==> o == Outcome(c, [FollowLink(c.bookmark.url)])
  {
    if c.isOptionHeld then Outcome(StartEditing(c, EditingTitle), [])
    else Outcome(c, [FollowLink(c.bookmark.url)])
  }

  /** Activating the URL: with Option held it opens the URL for editing;
      otherwise the URL goes to the clipboard. */
  function EnterUrlEditMode(c: OldCard): (o: Outcome)
    ensures c.isOptionHeld ==> o == Outcome(StartEditing(c, EditingUrl), [])
    ensures !c.isOptionHeld ==> o == Outcome(c, [WriteClipboard(c.bookmark.url)])
  {
    if c.isOptionHeld then Outcome(StartEditing(c, EditingUrl), [])
    else Outcome(c, [WriteClipboard(c.bookmark.url)])
  }

  /** A key in the edit input: Enter commits both buffers and closes the
      edit, Escape closes it without a call, any other key does nothing. */
  function HandleEditKeyDown(c: OldCard, key: string): (o: Outcome)
    ensures key == "Enter" ==>
              o == Outcome(c.(editing := NotEditing), [EditBookmark(c.bookmark.id, c.editableTitle, c.editableUrl)])
    ensures key == "Escape" ==> o == Outcome(c.(editing := NotEditing), [])
    ensures key != "Enter" && key != "Escape" ==> o == Outcome(c, [])
  {
    if key == "Enter" then
      Outcome(c.(editing := NotEditing), [EditBookmark(c.bookmark.id, c.editableTitle, c.editableUrl)])
    else if key == "Escape" then Outcome(c.(editing := NotEditing), [])
    else Outcome(c, [])
  }

  /** The tag input's Enter: the trimmed text becomes a tag when it is not
      empty; either way the input is cleared and closed. */
  function HandleNewTag(c: OldCard): (o: Outcome)
    ensures o.card == c.(isAddingTag := false, newTagValue := "")
    ensures Strings.AllWhitespace(c.newTagValue) ==> o.effects == []
    ensures !Strings.AllWhitespace(c.newTagValue) ==> o.effects == [AddTag(c.bookmark.id, Strings.Trim(c.newTagValue))]
  {
    var tag := Strings.Trim(c.newTagValue);
    var effects := if tag != "" then [AddTag(c.bookmark.id, tag)] else [];
    Outcome(c.(isAddingTag := false, newTagValue := ""), effects)
  }

  /** The tag sent is never empty and has no whitespace at either end. */
  lemma NewTagIsClean(c: OldCard)
    ensures forall f :: f in HandleNewTag(c).effects ==>
              f.AddTag? && |f.tag| > 0 && Strings.IsTrimmed(f.tag)
  {
  }

  /** Closing the tag input without adding. */
  function CloseTagInput(c: OldCard): (c': OldCard)
    ensures !c'.isAddingTag && c'.newTagValue == ""
  {
    c.(isAddingTag := false, newTagValue := "")
  }

  /** New props replace the bookmark; when its title or URL changed the
      buffers are reloaded from it. */
  function Resync(c: OldCard, b: BookmarkRecord): (c': OldCard)
    ensures c'.bookmark == b
    ensures b.title != c.bookmark.title || b.url != c.bookmark.url ==>
              c'.editableTitle == b.title && c'.editableUrl == b.url
    ensures b.title == c.bookmark.title && b.url == c.bookmark.url ==>
              c'.editableTitle == c.editableTitle && c'.editableUrl == c.editableUrl
  {
    if b.title != c.bookmark.title || b.url != c.bookmark.url then
      c.(bookmark := b, editableTitle := b.title, editableUrl := b.url)
    else c.(bookmark := b)
  }

  /** The element handler of one event, before the window listener. An
      event aimed at an element that is not rendered changes nothing. */
  function Handle(c: OldCard, e: Event): (o: Outcome)
    ensures o.card.isOptionHeld == c.isOptionHeld
  {
    var viewing := c.editing == NotEditing;
    var tagsShown := TagsRowExpanded(c);
    match e
    case WindowKeyDown(_) => Outcome(c, [])
    case WindowKeyUp(_) => Outcome(c, [])
    case MouseEnter => Outcome(c, [])
    case MouseLeave => if !c.isAddingTag then Outcome(c.(isExpanded := false), []) else Outcome(c, [])
    case TitleClick => if viewing then EnterTitleEditMode(c) else Outcome(c, [])
    case UrlClick => if viewing then EnterUrlEditMode(c) else Outcome(c, [])
    case UrlKeyDown(key, _) =>
      if viewing && (key == "Enter" || key == " ") then EnterUrlEditMode(c) else Outcome(c, [])
    case UrlMouseEnter => if viewing then Outcome(c.(isUrlHovered := true), []) else Outcome(c, [])
    case UrlMouseLeave => if viewing then Outcome(c.(isUrlHovered := false), []) else Outcome(c, [])
    case EditChange(v) =>
      if c.editing == EditingTitle then Outcome(c.(editableTitle := v), [])
      else if c.editing == EditingUrl then Outcome(c.(editableUrl := v), [])
      else Outcome(c, [])
    case EditKeyDown(key, _) => if !viewing then HandleEditKeyDown(c, key) else Outcome(c, [])
    case EditBlur => Outcome(c.(editing := NotEditing), [])
    case DeleteClick => if DeleteEnabled(c) then Outcome(c, [DeleteBookmark(c.bookmark.id)]) else Outcome(c, [])
    case TagClick(tag) =>
      if tagsShown && tag in c.bookmark.tags then Outcome(c, [RemoveTag(c.bookmark.id, tag)]) else Outcome(c, [])
    case PlusClick => if tagsShown && !c.isAddingTag then Outcome(c.(isAddingTag := true), []) else Outcome(c, [])
    case TagChange(v) => if tagsShown && c.isAddingTag then Outcome(c.(newTagValue := v), []) else Outcome(c, [])
    case TagKeyDown(key, _) =>
      if tagsShown && c.isAddingTag then
        if key == "Enter" then HandleNewTag(c)
        else if key == "Escape" then Outcome(CloseTagInput(c), [])
        else Outcome(c, [])
      else Outcome(c, [])
    case TagBlur => if tagsShown && c.isAddingTag then Outcome(CloseTagInput(c), []) else Outcome(c, [])
    case PropsChanged(b) => Outcome(Resync(c, b), [])
  }

  /** One event: the element's handler, then the window's Alt tracking. */
  function Step(c: OldCard, e: Event): Outcome
  {
    var h := Handle(c, e);
    Outcome(TrackOption(h.card, e), h.effects)
  }

  function Run(c: OldCard, es: seq<Event>): Outcome
    decreases |es|
  {
    if |es| == 0 then Outcome(c, [])
    else
      var first := Step(c, es[0]);
      var rest := Run(first.card, es[1..]);
      Outcome(rest.card, first.effects + rest.effects)
  }

  lemma RunCons(c: OldCard, e: Event, es: seq<Event>)
    ensures Run(c, [e] + es)
            == Outcome(Run(Step(c, e).card, es).card, Step(c, e).effects + Run(Step(c, e).card, es).effects)
  {
    assert ([e] + es)[0] == e && ([e] + es)[1..] == es;
  }

  // ---------------------------------------------------------------------
  // Properties

  /** Alt down on any keydown sets the flag, a keyup without Alt clears it. */
  lemma OptionTracking(c: OldCard, e: Event)
    ensures AltDown(e) ==> Step(c, e).card.isOptionHeld
    ensures e.WindowKeyUp? && !e.altKey ==> !Step(c, e).card.isOptionHeld
    ensures !AltDown(e) && !e.WindowKeyUp? ==> Step(c, e).card.isOptionHeld == c.isOptionHeld
  {
  }

  /** Nothing sets `isExpanded` (the mouse-enter handler only logs), so a
      card that starts collapsed never opens its tags row and never adds
      or removes a tag nor deletes its bookmark. */
  ghost predicate Dormant(c: OldCard) {
    !c.isExpanded && !c.isAddingTag
  }

  /** No handler expands the card, and the tag input opens only from
      the "+" of an open tags row. */
  lemma HandleNeverExpands(c: OldCard, e: Event)
    ensures Handle(c, e).card.isExpanded ==> c.isExpanded
    ensures Handle(c, e).card.isAddingTag ==> c.isAddingTag || TagsRowExpanded(c)
    ensures Handle(c, e).card.isAddingTag && !c.isAddingTag ==> e.PlusClick? && TagsRowExpanded(c)
  {
  }

  /** Escape or blur on the open tag input closes it and clears it,
      without adding a tag. */
  lemma TagInputCloses(c: OldCard, alt: bool)
    requires TagsRowExpanded(c) && c.isAddingTag
    ensures Handle(c, TagBlur) == Outcome(CloseTagInput(c), [])
    ensures Handle(c, TagKeyDown("Escape", alt)) == Outcome(CloseTagInput(c), [])
  {
  }

  lemma StepKeepsDormant(c: OldCard, e: Event)
    requires Dormant(c)
    ensures Dormant(Step(c, e).card)
    ensures !TagsRowExpanded(c)
    ensures forall f :: f in Step(c, e).effects ==> !f.AddTag? && !f.RemoveTag? && !f.DeleteBookmark?
  {
    HandleNeverExpands(c, e);
  }

  lemma {:induction false} TagRowNeverShown(b: BookmarkRecord, es: seq<Event>)
    ensures Dormant(Run(Init(b), es).card)
    ensures !TagsRowExpanded(Run(Init(b), es).card)
    ensures forall f :: f in Run(Init(b), es).effects ==> !f.AddTag? && !f.RemoveTag? && !f.DeleteBookmark?
  {
    RunFromDormant(Init(b), es);
  }

  lemma {:induction false} RunFromDormant(c: OldCard, es: seq<Event>)
    requires Dormant(c)
    decreases |es|
    ensures Dormant(Run(c, es).card)
    ensures !TagsRowExpanded(Run(c, es).card)
    ensures forall f :: f in Run(c, es).effects ==> !f.AddTag? && !f.RemoveTag? && !f.DeleteBookmark?
  {
    if |es| > 0 {
      StepKeepsDormant(c, es[0]);
      RunFromDormant(Step(c, es[0]).card, es[1..]);
    }
  }

  /** Entering edit mode needs Option; otherwise the title follows its
      link and the URL is copied. */
  lemma EditNeedsOption(c: OldCard, e: Event)
    requires c.editing == NotEditing && !c.isOptionHeld
    requires e.TitleClick? || e.UrlClick?
    ensures Step(c, e).card.editing == NotEditing
    ensures e.TitleClick? ==> Step(c, e).effects == [FollowLink(c.bookmark.url)]
    ensures e.UrlClick? ==> Step(c, e).effects == [WriteClipboard(c.bookmark.url)]
  {
  }

  /** While viewing, a click on the title or the URL runs its handler and
      leaves the Option flag as it was. */
  lemma StepClickWhileViewing(c: OldCard)
    requires c.editing == NotEditing
    ensures Step(c, TitleClick) == EnterTitleEditMode(c)
    ensures Step(c, UrlClick) == EnterUrlEditMode(c)
  {
  }

  /** Typing in the open field changes that field's buffer only. */
  lemma StepEditChange(c: OldCard, v: string)
    requires c.editing != NotEditing
    ensures c.editing == EditingTitle ==> Step(c, EditChange(v)) == Outcome(c.(editableTitle := v), [])
    ensures c.editing == EditingUrl ==> Step(c, EditChange(v)) == Outcome(c.(editableUrl := v), [])
  {
  }

  /** A key in the open field is exactly the edit handler's, whether Option
      is still held or already released; only an Alt keydown while the flag
      is clear would also set the flag. */
  lemma StepEditKey(c: OldCard, key: string, alt: bool)
    requires c.editing != NotEditing && (c.isOptionHeld || !alt)
    ensures Step(c, EditKeyDown(key, alt)) == HandleEditKeyDown(c, key)
  {
  }

  /** Reopening a field discards abandoned edits: Escape, then Option and
      a click on the title again, shows the bookmark's own title. */
  lemma ReopenStartsFresh(c: OldCard, typed: string)
    requires c.editing == EditingTitle && c.isOptionHeld
    ensures Run(c, [EditChange(typed), EditKeyDown("Escape", true), TitleClick]).card.editableTitle
            == c.bookmark.title
    ensures Run(c, [EditChange(typed), EditKeyDown("Escape", true), TitleClick]).effects == []
  {
    var c1 := c.(editableTitle := typed);
    var c2 := c1.(editing := NotEditing);
    StepEditChange(c, typed);
    StepEditKey(c1, "Escape", true);
    StepClickWhileViewing(c2);
    RunCons(c2, TitleClick, []);
    RunCons(c1, EditKeyDown("Escape", true), [TitleClick]);
    RunCons(c, EditChange(typed), [EditKeyDown("Escape", true), TitleClick]);
  }

  /** Option-click the title, type, Enter: one edit call with the typed
      title and the bookmark's own URL; the field closes. */
  lemma TitleEditCommits(c: OldCard, typed: string, alt: bool)
    requires c.editing == NotEditing && c.isOptionHeld
    ensures Run(c, [TitleClick, EditChange(typed), EditKeyDown("Enter", alt)]).effects
            == [EditBookmark(c.bookmark.id, typed, c.bookmark.url)]
    ensures Run(c, [TitleClick, EditChange(typed), EditKeyDown("Enter", alt)]).card.editing == NotEditing
  {
    var c1 := StartEditing(c, EditingTitle);
    var c2 := c1.(editableTitle := typed);
    StepClickWhileViewing(c);
    StepEditChange(c1, typed);
    StepEditKey(c2, "Enter", alt);
    RunCons(c2, EditKeyDown("Enter", alt), []);
    RunCons(c1, EditChange(typed), [EditKeyDown("Enter", alt)]);
    RunCons(c, TitleClick, [EditChange(typed), EditKeyDown("Enter", alt)]);
  }

  /** The usual flow: Option-click the title, release Alt, type, Enter. The
      edit handler does not read the Option flag, so the commit is the same. */
  lemma TitleEditCommitsAfterRelease(c: OldCard, typed: string)
    requires c.editing == NotEditing && c.isOptionHeld
    ensures Run(c, [TitleClick, WindowKeyUp(false), EditChange(typed), EditKeyDown("Enter", false)]).effects
            == [EditBookmark(c.bookmark.id, typed, c.bookmark.url)]
    ensures Run(c, [TitleClick, WindowKeyUp(false), EditChange(typed), EditKeyDown("Enter", false)]).card.editing
            == NotEditing
  {
    var c1 := StartEditing(c, EditingTitle);
    var c2 := c1.(isOptionHeld := false);
    var c3 := c2.(editableTitle := typed);
    StepClickWhileViewing(c);
    assert Step(c1, WindowKeyUp(false)) == Outcome(c2, []);
    StepEditChange(c2, typed);
    StepEditKey(c3, "Enter", false);
    RunCons(c3, EditKeyDown("Enter", false), []);
    RunCons(c2, EditChange(typed), [EditKeyDown("Enter", false)]);
    RunCons(c1, WindowKeyUp(false), [EditChange(typed), EditKeyDown("Enter", false)]);
    RunCons(c, TitleClick, [WindowKeyUp(false), EditChange(typed), EditKeyDown("Enter", false)]);
  }

  /** Leaving the field by blur closes it without a call. */
  lemma BlurCancels(c: OldCard)
    requires c.editing != NotEditing
    ensures Step(c, EditBlur).card.editing == NotEditing
    ensures Step(c, EditBlur).effects == []
  {
  }

  /** The tag sent is its own trim: typing it again, trimmed or not,
      sends the same tag. */
  lemma NewTagIsTrimmed(c: OldCard, typed: string)
    requires !Strings.AllWhitespace(typed)
    ensures HandleNewTag(c.(newTagValue := typed)).effects
            == HandleNewTag(c.(newTagValue := Strings.Trim(typed))).effects
  {
    Strings.TrimIdempotent(typed);
    var t := Strings.Trim(typed);
    assert t != "";
  }
}

=== FILE: bookmark_utils.dfy ===
/** What both bookmark cards share: the bookmark record, the calls a card
    makes on its parent, and the three display helpers, the date label,
    the hover label and the resting label of the URL. */
module BookmarkUtils {
  import opened Wrappers
  import Strings

  /** One saved bookmark as the list hands it to a card. `createdAt` is
      expected to read like "DD/MM/YYYY, HH:MM:SS". */
  datatype BookmarkRecord = BookmarkRecord(
    id: int,
    title: string,
    url: string,
    tags: seq<string>,
    favicon: string,
    createdAt: string)

  /** What `new URL(url)` yields when the string parses; a URL that does not
      parse is `None`. The parser itself is not modelled. */
  datatype UrlParts = UrlParts(hostname: string, pathname: string)

  /** The calls a card makes outward: its parent's callbacks, the
      clipboard, the browser following a link, moving the focus. */
  datatype Effect =
    | EditBookmark(id: int, title: string, url: string)
    | DeleteBookmark(id: int)
    | AddTag(bookmarkId: int, tag: string)
    | RemoveTag(bookmarkId: int, tag: string)
    | WriteClipboard(text: string)
    | FollowLink(href: string)
    | FocusUrlInput

  // ---------------------------------------------------------------------
  // The URL labels

  const HTTP: string := "http://"
  const HTTPS: string := "https://"
  const WWW: string := "www."

  /** How `/^(https?:\/\/)?(www\.)?/` matches `url`: an optional scheme,
      then an optional "www.", each taken whenever it is there, and `rest`
      the remainder after them. */
  ghost predicate PrefixMatch(url: string, scheme: string, www: string, rest: string) {
    && (scheme == "" || scheme == HTTP || scheme == HTTPS)
    && (www == "" || www == WWW)
    && Strings.StartsWith(url, scheme)
    && Strings.StartsWith(url[|scheme|..], www)
    && rest == url[|scheme| + |www|..]
    && (scheme == "" ==> !Strings.StartsWith(url, HTTP) && !Strings.StartsWith(url, HTTPS))
    && (www == "" ==> !Strings.StartsWith(rest, WWW))
  }

  /** The match cuts `url` into its three pieces. */
  lemma PrefixMatchSplits(url: string, scheme: string, www: string, rest: string)
    requires PrefixMatch(url, scheme, www, rest)
    ensures url == scheme + www + rest
  {
    var a := url[|scheme|..];
    assert url == url[..|scheme|] + a;
    assert a == a[..|www|] + a[|www|..];
    assert a[|www|..] == rest;
  }

  /** The leading "www." removed, if there is one. */
  function StripWww(s: string): (r: string)
    ensures Strings.StartsWith(s, WWW) ==> s == WWW + r
    ensures !Strings.StartsWith(s, WWW) ==> r == s
  {
    if Strings.StartsWith(s, WWW) then s[|WWW|..] else s
  }

  /** `url.replace(/^(https?:\/\/)?(www\.)?/, "")` */
  function CleanUrl(url: string): (r: string)
    ensures exists scheme, www :: PrefixMatch(url, scheme, www, r)
  {
    var scheme := if Strings.StartsWith(url, HTTPS) then HTTPS
                  else if Strings.StartsWith(url, HTTP) then HTTP
                  else "";
    var afterScheme := url[|scheme|..];
    var www := if Strings.StartsWith(afterScheme, WWW) then WWW else "";
    var r := StripWww(afterScheme);
    assert r == url[|scheme| + |www|..];
    assert PrefixMatch(url, scheme, www, r);
    r
  }

  /** The match is unique: whatever split of `url` fits the pattern's
      greedy reading, its remainder is what `CleanUrl` returns. */
  lemma CleanUrlUnique(url: string, scheme: string, www: string, rest: string)
    requires PrefixMatch(url, scheme, www, rest)
    ensures CleanUrl(url) == rest
  {
    var s, w :| PrefixMatch(url, s, w, CleanUrl(url));
    SchemeUnique(url, scheme, www, rest, s, w, CleanUrl(url));
  }

  lemma SchemeUnique(url: string, s1: string, w1: string, r1: string, s2: string, w2: string, r2: string)
    requires PrefixMatch(url, s1, w1, r1) && PrefixMatch(url, s2, w2, r2)
    ensures r1 == r2
  {
    SchemeEq(url, s1, s2);
    var a := url[|s1|..];
    assert r1 == a[|w1|..] && r2 == a[|w2|..];
    WwwEq(a, w1, w2);
  }

  lemma SchemeEq(url: string, s1: string, s2: string)
    requires s1 == "" || s1 == HTTP || s1 == HTTPS
    requires s2 == "" || s2 == HTTP || s2 == HTTPS
    requires Strings.StartsWith(url, s1) && Strings.StartsWith(url, s2)
    requires s1 == "" ==> !Strings.StartsWith(url, HTTP) && !Strings.StartsWith(url, HTTPS)
    requires s2 == "" ==> !Strings.StartsWith(url, HTTP) && !Strings.StartsWith(url, HTTPS)
    ensures s1 == s2
  {
    NotBothSchemes(url);
  }

  /** No URL starts with both schemes. */
  lemma NotBothSchemes(url: string)
    ensures !(Strings.StartsWith(url, HTTP) && Strings.StartsWith(url, HTTPS))
  {
    assert Strings.StartsWith(url, HTTP) ==> url[4] == HTTP[4];
    assert Strings.StartsWith(url, HTTPS) ==> url[4] == HTTPS[4];
  }

  lemma WwwEq(a: string, w1: string, w2: string)
    requires (w1 == "" || w1 == WWW) && (w2 == "" || w2 == WWW)
    requires Strings.StartsWith(a, w1) && Strings.StartsWith(a, w2)
    requires w1 == "" ==> !Strings.StartsWith(a, WWW)
    requires w2 == "" ==> !Strings.StartsWith(a, WWW)
    ensures w1 == w2
  {
  }

  /** What the card shows while the pointer is over the URL: the cleaned
      URL, with "/" added when the URL parses, its path is exactly "/" and
      the cleaned text does not already end with "/". */
  function DisplayUrlOnHover(url: string, parsed: Option<UrlParts>): (r: string)
    ensures r == CleanUrl(url) || r == CleanUrl(url) + "/"
    ensures r != CleanUrl(url) <==>
              parsed.Some? && parsed.value.pathname == "/" && !Strings.EndsWith(CleanUrl(url), "/")
    ensures parsed.Some? && parsed.value.pathname == "/" ==> Strings.EndsWith(r, "/")
  {
    var clean := CleanUrl(url);
    if parsed.Some? && parsed.value.pathname == "/" && !Strings.EndsWith(clean, "/") then clean + "/"
    else clean
  }

  /** The resting URL label: the host name without a leading "www." and
      a "/" after it, or the raw URL when it does not parse. */
  function FormattedUrl(url: string, parsed: Option<UrlParts>): (r: string)
    ensures parsed.None? ==> r == url
    ensures parsed.Some? ==> Strings.EndsWith(r, "/") && r[..|r| - 1] == StripWww(parsed.value.hostname)
  {
    match parsed
    case None => url
    case Some(u) => StripWww(u.hostname) + "/"
  }

  /** The URL text of a card: the hover label while hovered, else the resting one. */
  function UrlLabel(url: string, parsed: Option<UrlParts>, hovered: bool): string
  {
    if hovered then DisplayUrlOnHover(url, parsed) else FormattedUrl(url, parsed)
  }

  /** Host text that `new URL` can hand back as it is: lower-case letters,
      digits, dots and hyphens, so no upper case to fold, no port and no
      user or password. */
  predicate PlainHostName(h: string) {
    |h| > 0 && forall i :: 0 <= i < |h| ==> h[i] in "abcdefghijklmnopqrstuvwxyz0123456789.-"
  }

  /** For a bare origin such as "https://www.example.com/", which the
      parser reads back as that host name and the path "/", the label does
      not change when the pointer moves over it: both show the host name
      without "www." and with a "/". */
  lemma HoverMatchesRestingForOrigin(scheme: string, hostname: string)
    requires scheme == HTTP || scheme == HTTPS
    requires PlainHostName(hostname)
    ensures var url := scheme + hostname + "/";
            var parsed := Some(UrlParts(hostname, "/"));
            && UrlLabel(url, parsed, true) == UrlLabel(url, parsed, false)
            && UrlLabel(url, parsed, true) == StripWww(hostname) + "/"
  {
    var url := scheme + hostname + "/";
    CleanOrigin(scheme, hostname);
    assert Strings.EndsWith(CleanUrl(url), "/");
  }

  /** Cleaning a bare origin leaves the host name without "www.", then "/". */
  lemma CleanOrigin(scheme: string, hostname: string)
    requires scheme == HTTP || scheme == HTTPS
    ensures CleanUrl(scheme + hostname + "/") == StripWww(hostname) + "/"
  {
    var url := scheme + hostname + "/";
    var www := if Strings.StartsWith(hostname, WWW) then WWW else "";
    var rest := StripWww(hostname) + "/";
    WwwBeforeSlash(hostname);
    assert url[..|scheme|] == scheme;
    assert url[|scheme|..] == hostname + "/";
    assert rest == url[|scheme| + |www|..];
    assert PrefixMatch(url, scheme, www, rest);
    CleanUrlUnique(url, scheme, www, rest);
  }

  lemma WwwBeforeSlash(h: string)
    ensures Strings.StartsWith(h + "/", WWW) <==> Strings.StartsWith(h, WWW)
    ensures Strings.StartsWith(h, WWW) ==> StripWww(h) + "/" == (h + "/")[|WWW|..]
  {
    if |h| >= |WWW| {
      assert (h + "/")[..|WWW|] == h[..|WWW|];
      assert (h + "/")[|WWW|..] == h[|WWW|..] + "/";
    } else {
      assert |h| == 3 ==> (h + "/")[3] == '/' && WWW[3] == '.';
    }
  }

  // ---------------------------------------------------------------------
  // The date label

  /** What the date label is computed from: the raw string when it does not
      have two non-empty halves around ", " (handed to `new Date(...)`),
      else the six numbers handed to `new Date(year, month, day, ...)`,
      the month already made zero-based. */
  datatype DateLabel =
    | Fallback(raw: string)
    | Parts(year: Strings.Num, monthIndex: Strings.Num, day: Strings.Num,
            hours: Strings.Num, minutes: Strings.Num, seconds: Strings.Num)

  /** `getFormattedDate`, up to the `Date` constructor and `toLocaleString`. */
  function GetFormattedDate(dateStr: string): (r: DateLabel)
    ensures r.Fallback? ==> r.raw == dateStr
    ensures r.Fallback? <==>
              var halves := Strings.Split(dateStr, ", ");
              halves[0] == "" || |halves| < 2 || halves[1] == ""
  {
    var halves := Strings.Split(dateStr, ", ");
    var datePart := Strings.At(halves, 0);
    var timePart := Strings.At(halves, 1);
    if !Strings.Truthy(datePart) || !Strings.Truthy(timePart) then Fallback(dateStr)
    else
      var d := Strings.Split(datePart.value, "/");
      var t := Strings.Split(timePart.value, ":");
      Parts(
        Strings.ToNumber(Strings.At(d, 2)),
        Strings.ToNumber(Strings.At(d, 1)).Pred(),
        Strings.ToNumber(Strings.At(d, 0)),
        Strings.ToNumber(Strings.At(t, 0)),
        Strings.ToNumber(Strings.At(t, 1)),
        Strings.ToNumber(Strings.At(t, 2)))
  }

  /** The layout `createdAt` is expected to have. */
  function DateStamp(day: string, month: string, year: string,
                     hours: string, minutes: string, seconds: string): string
  {
    day + "/" + month + "/" + year + ", " + hours + ":" + minutes + ":" + seconds
  }

  lemma Join3(a: string, b: string, c: string, sep: string)
    ensures Strings.Join([a, b, c], sep) == a + sep + b + sep + c
  {
    assert [a, b, c][1..] == [b, c];
    assert [b, c][1..] == [c];
    assert Strings.Join([b, c], sep) == b + sep + c;
    assert a + sep + (b + sep + c) == a + sep + b + sep + c;
  }

  /** A string laid out as "day/month/year, hours:minutes:seconds" is read
      field by field: no field may hold a comma, the date fields no "/"
      and the time fields no ":". */
  lemma FormattedDateFields(day: string, month: string, year: string,
                            hours: string, minutes: string, seconds: string)
    requires ',' !in day && ',' !in month && ',' !in year
    requires ',' !in hours && ',' !in minutes && ',' !in seconds
    requires '/' !in day && '/' !in month && '/' !in year
    requires ':' !in hours && ':' !in minutes && ':' !in seconds
    ensures GetFormattedDate(DateStamp(day, month, year, hours, minutes, seconds))
            == Parts(Strings.ToNumber(Some(year)), Strings.ToNumber(Some(month)).Pred(),
                     Strings.ToNumber(Some(day)), Strings.ToNumber(Some(hours)),
                     Strings.ToNumber(Some(minutes)), Strings.ToNumber(Some(seconds)))
  {
    var stamp := DateStamp(day, month, year, hours, minutes, seconds);
    var datePart := Strings.Join([day, month, year], "/");
    var timePart := Strings.Join([hours, minutes, seconds], ":");
    StampHalves(day, month, year, hours, minutes, seconds);
    ReadHalves(stamp, datePart, timePart);
    ThreeFields(day, month, year, "/");
    ThreeFields(hours, minutes, seconds, ":");
  }

  /** Three pieces free of a one-character separator split back from their join. */
  lemma ThreeFields(a: string, b: string, c: string, sep: string)
    requires |sep| == 1 && sep[0] !in a && sep[0] !in b && sep[0] !in c
    ensures var xs := Strings.Split(Strings.Join([a, b, c], sep), sep);
            Strings.At(xs, 0) == Some(a) && Strings.At(xs, 1) == Some(b) && Strings.At(xs, 2) == Some(c)
  {
    Strings.SplitJoin([a, b, c], sep);
  }

  /** A string with two non-empty halves around ", " is read field by field
      from the pieces of each half. */
  lemma ReadHalves(stamp: string, datePart: string, timePart: string)
    requires Strings.Split(stamp, ", ") == [datePart, timePart]
    requires datePart != "" && timePart != ""
    ensures var d := Strings.Split(datePart, "/");
            var t := Strings.Split(timePart, ":");
            GetFormattedDate(stamp)
            == Parts(Strings.ToNumber(Strings.At(d, 2)), Strings.ToNumber(Strings.At(d, 1)).Pred(),
                     Strings.ToNumber(Strings.At(d, 0)), Strings.ToNumber(Strings.At(t, 0)),
                     Strings.ToNumber(Strings.At(t, 1)), Strings.ToNumber(Strings.At(t, 2)))
  {
    var halves := Strings.Split(stamp, ", ");
    assert Strings.At(halves, 0) == Some(datePart) && Strings.At(halves, 1) == Some(timePart);
  }

  /** The stamp splits on ", " into its date half and its time half. */
  lemma StampHalves(day: string, month: string, year: string,
                    hours: string, minutes: string, seconds: string)
    requires ',' !in day && ',' !in month && ',' !in year
    requires ',' !in hours && ',' !in minutes && ',' !in seconds
    ensures Strings.Split(DateStamp(day, month, year, hours, minutes, seconds), ", ")
            == [Strings.Join([day, month, year], "/"), Strings.Join([hours, minutes, seconds], ":")]
    ensures Strings.Join([day, month, year], "/") != "" && Strings.Join([hours, minutes, seconds], ":") != ""
  {
    var datePart := Strings.Join([day, month, year], "/");
    var timePart := Strings.Join([hours, minutes, seconds], ":");
    Join3(day, month, year, "/");
    Join3(hours, minutes, seconds, ":");
    assert ',' !in datePart && ',' !in timePart;
    assert Strings.Join([datePart, timePart], ", ") == datePart + ", " + timePart;
    assert DateStamp(day, month, year, hours, minutes, seconds) == datePart + ", " + timePart;
    Strings.SplitJoin([datePart, timePart], ", ");
  }

  /** The numbers the card writes read back as themselves, with the month
      shifted down by one. */
  lemma FormattedDateOfNumbers(day: nat, month: nat, year: nat, hours: nat, minutes: nat, seconds: nat)
    requires day <= Strings.MAX_EXACT && month <= Strings.MAX_EXACT && year <= Strings.MAX_EXACT
    requires hours <= Strings.MAX_EXACT && minutes <= Strings.MAX_EXACT && seconds <= Strings.MAX_EXACT
    ensures GetFormattedDate(DateStamp(Strings.ShowNat(day), Strings.ShowNat(month), Strings.ShowNat(year),
                                       Strings.ShowNat(hours), Strings.ShowNat(minutes), Strings.ShowNat(seconds)))
            == Parts(Strings.Int(year), Strings.Int(month - 1), Strings.Int(day),
                     Strings.Int(hours), Strings.Int(minutes), Strings.Int(seconds))
  {
    var d, m, y := Strings.ShowNat(day), Strings.ShowNat(month), Strings.ShowNat(year);
    var h, mi, s := Strings.ShowNat(hours), Strings.ShowNat(minutes), Strings.ShowNat(seconds);
    DigitsFree(d); DigitsFree(m); DigitsFree(y);
    DigitsFree(h); DigitsFree(mi); DigitsFree(s);
    FormattedDateFields(d, m, y, h, mi, s);
    Strings.NumberOfShowNat(day); Strings.NumberOfShowNat(month); Strings.NumberOfShowNat(year);
    Strings.NumberOfShowNat(hours); Strings.NumberOfShowNat(minutes); Strings.NumberOfShowNat(seconds);
    MonthIndexOfShowNat(month);
  }

  lemma MonthIndexOfShowNat(month: nat)
    requires month <= Strings.MAX_EXACT
    ensures Strings.ToNumber(Some(Strings.ShowNat(month))).Pred() == Strings.Int(month - 1)
  {
    var n := Strings.ToNumber(Some(Strings.ShowNat(month)));
    Strings.NumberOfShowNat(month);
    assert n == Strings.Int(month);
  }

  lemma DigitsFree(s: string)
    requires Strings.AllDigits(s)
    ensures ',' !in s && '/' !in s && ':' !in s
  {
  }

  /** Without ", " in it the string goes to the fallback whole. */
  lemma FormattedDateFallback(dateStr: string)
    requires Strings.NoOccurrence(dateStr, ", ")
    ensures GetFormattedDate(dateStr) == Fallback(dateStr)
  {
    assert Strings.IndexOf(dateStr, ", ", 0).None?;
  }
}

=== FILE: search.dfy ===
/** The search bar's tag picker: the labels already chosen (`tagList`), the
    options still offered (`availableTags`), the `/` shortcut that opens the
    picker, choosing an option, removing a chosen label, and the Enter key
    that submits the URL with the chosen labels. */
module Search {
  import opened Wrappers
  import Strings
  import opened Seqs

  /** An option of the `tags` prop; `labelText` is its `label`. */
  datatype Tag = Tag(value: string, labelText: string, textColor: string, bgColor: string)

  /** The component's picker state. */
  datatype Picker = Picker(tagList: seq<string>, showingCommand: bool,
                           availableTags: seq<Tag>, tagSearchValue: string)

  /** Initial state for the `tags` prop. */
  function Init(tags: seq<Tag>): Picker {
    Picker([], false, tags, "")
  }

  // ---------------------------------------------------------------------
  // Array helpers: find and filter

  /** `ts[i]` is the first option whose value is `v`. */
  predicate FirstWithValue(ts: seq<Tag>, v: string, i: int) {
    0 <= i < |ts| && ts[i].value == v && forall j :: 0 <= j < i ==> ts[j].value != v
  }

  /** `ts[i]` is the first option whose label is `l`. */
  predicate FirstWithLabel(ts: seq<Tag>, l: string, i: int) {
    0 <= i < |ts| && ts[i].labelText == l && forall j :: 0 <= j < i ==> ts[j].labelText != l
  }

  /** `ts.find((t) => t.value === v)`: the first option with that value. */
  function FindByValue(ts: seq<Tag>, v: string): (r: Option<Tag>)
    ensures r.Some? ==> r.value in ts && r.value.value == v
    ensures r.Some? ==> exists i :: FirstWithValue(ts, v, i) && ts[i] == r.value
    ensures r.None? <==> forall t :: t in ts ==> t.value != v
  {
    if |ts| == 0 then None
    else if ts[0].value == v then
      assert FirstWithValue(ts, v, 0);
      Some(ts[0])
    else
      assert forall t :: t in ts[1..] ==> t in ts;
      var r := FindByValue(ts[1..], v);
      if r.Some? then
        var i :| FirstWithValue(ts[1..], v, i) && ts[1..][i] == r.value;
        assert FirstWithValue(ts, v, i + 1);
        r
      else r
  }

  /** `ts.find((t) => t.labelText === l)`: the first option with that label. */
  function FindByLabel(ts: seq<Tag>, l: string): (r: Option<Tag>)
    ensures r.Some? ==> r.value in ts && r.value.labelText == l
    ensures r.Some? ==> exists i :: FirstWithLabel(ts, l, i) && ts[i] == r.value
    ensures r.None? <==> forall t :: t in ts ==> t.labelText != l
  {
    if |ts| == 0 then None
    else if ts[0].labelText == l then
      assert FirstWithLabel(ts, l, 0);
      Some(ts[0])
    else
      assert forall t :: t in ts[1..] ==> t in ts;
      var r := FindByLabel(ts[1..], l);
      if r.Some? then
        var i :| FirstWithLabel(ts[1..], l, i) && ts[1..][i] == r.value;
        assert FirstWithLabel(ts, l, i + 1);
        r
      else r
  }

  /** `ts.filter((t) => t.value !== v)`: keeps the other options, in order. */
  function DropValue(ts: seq<Tag>, v: string): (r: seq<Tag>)
    ensures forall t :: t in r <==> t in ts && t.value != v
    ensures |r| <= |ts|
    ensures NoDup(ts) ==> NoDup(r)
  {
    if |ts| == 0 then []
    else
      var rest := DropValue(ts[1..], v);
      assert forall t :: t in ts <==> t == ts[0] || t in ts[1..];
      if ts[0].value == v then rest else [ts[0]] + rest
  }

  /** `ls.filter((t) => t !== l)`: removes every occurrence of `l`, keeps the rest in order. */
  function DropLabel(ls: seq<string>, l: string): (r: seq<string>)
    ensures forall x :: x in r <==> x in ls && x != l
    ensures |r| <= |ls|
    ensures l !in ls ==> r == ls
    ensures NoDup(ls) ==> NoDup(r)
  {
    if |ls| == 0 then []
    else
      var rest := DropLabel(ls[1..], l);
      assert forall x :: x in ls <==> x == ls[0] || x in ls[1..];
      if ls[0] == l then rest
      else
        assert NoDup(ls) ==> ls[0] !in ls[1..];
        [ls[0]] + rest
  }

  // ---------------------------------------------------------------------
  // Operations

  /** The `CommandItem`'s `onSelect`: the option whose value was chosen is
      looked up among the available ones; an unknown value only closes the
      picker. Otherwise its label is appended to `tagList` unless already
      there, every option with its value leaves `availableTags`, the filter
      highlight is cleared and the picker closes. */
  function Select(p: Picker, currentValue: string): (p': Picker)
    ensures !p'.showingCommand
    ensures FindByValue(p.availableTags, currentValue).None? ==>
      p' == p.(showingCommand := false)
    ensures FindByValue(p.availableTags, currentValue).Some? ==>
      var sel := FindByValue(p.availableTags, currentValue).value;
      && sel in p.availableTags
      && (sel.labelText in p.tagList ==> p'.tagList == p.tagList)
      && (sel.labelText !in p.tagList ==> p'.tagList == p.tagList + [sel.labelText])
      && (forall t :: t in p'.availableTags <==> t in p.availableTags && t.value != sel.value)
      && p'.tagSearchValue == ""
    ensures NoDup(p.tagList) ==> NoDup(p'.tagList)
  {
    match FindByValue(p.availableTags, currentValue)
    case None => p.(showingCommand := false)
    case Some(selected) =>
      var next := if selected.labelText in p.tagList then p.tagList else p.tagList + [selected.labelText];
      Picker(next, false, DropValue(p.availableTags, selected.value), "")
  }

  /** `removeTag(label)`: every occurrence of the label leaves `tagList`;
      the first option of the `tags` prop carrying that label goes back to
      `availableTags` unless an option with its value is already there. */
  function RemoveTag(p: Picker, tags: seq<Tag>, tagLabel: string): (p': Picker)
    ensures forall x :: x in p'.tagList <==> x in p.tagList && x != tagLabel
    ensures tagLabel !in p.tagList ==> p'.tagList == p.tagList
    ensures (forall t :: t in tags ==> t.labelText != tagLabel) ==> p'.availableTags == p.availableTags
    ensures forall i :: FirstWithLabel(tags, tagLabel, i) ==>
      var o := tags[i];
      && ((exists a :: a in p.availableTags && a.value == o.value) ==> p'.availableTags == p.availableTags)
      && ((forall a :: a in p.availableTags ==> a.value != o.value) ==> p'.availableTags == p.availableTags + [o])
    ensures p'.showingCommand == p.showingCommand && p'.tagSearchValue == p.tagSearchValue
    ensures NoDup(p.tagList) ==> NoDup(p'.tagList)
  {
    var available :=
      match FindByLabel(tags, tagLabel)
      case None => p.availableTags
      case Some(option) =>
        if FindByValue(p.availableTags, option.value).Some? then p.availableTags
        else p.availableTags + [option];
    p.(tagList := DropLabel(p.tagList, tagLabel), availableTags := available)
  }

  /** The `/` handler on the window. Pressing `/` in the main input opens
      the picker only at the start of the input or right after whitespace;
      elsewhere on the page it moves focus to the main input instead. */
  datatype KeyOutcome = KeyOutcome(showingCommand: bool, preventDefault: bool, focusMainInput: bool)

  /** The character before the caret, as `value[caretPos - 1]`: absent at
      position 0 or past the end of the value. */
  function CharBefore(value: string, caretPos: nat): Option<char> {
    if 0 < caretPos <= |value| then Some(value[caretPos - 1]) else None
  }

  function SlashKey(showingCommand: bool, key: string, mainInputFocused: bool,
                    value: string, selectionStart: Option<nat>): (r: KeyOutcome)
    ensures key != "/" || showingCommand ==> r == KeyOutcome(showingCommand, false, false)
    ensures key == "/" && !showingCommand && !mainInputFocused ==>
      r == KeyOutcome(false, true, true)
    ensures key == "/" && !showingCommand && mainInputFocused ==>
      var caretPos := selectionStart.GetOr(|value|);
      var opens := caretPos == 0 || (0 < caretPos <= |value| && Strings.IsWhitespace(value[caretPos - 1]));
      && !r.focusMainInput
      && r.showingCommand == opens
      && r.preventDefault == opens
  {
    if key != "/" then KeyOutcome(showingCommand, false, false)
    else if showingCommand then KeyOutcome(showingCommand, false, false)
    else if mainInputFocused then
      var caretPos := selectionStart.GetOr(|value|);
      var precededBySpace :=
        caretPos == 0 || (match CharBefore(value, caretPos) case None => false case Some(c) => Strings.IsWhitespace(c));
      if precededBySpace then KeyOutcome(true, true, false)
      else KeyOutcome(false, false, false)
    else KeyOutcome(false, true, true)
  }

  /** A submission: the chosen labels and the trimmed text of the main input. */
  datatype Submission = Submission(tags: seq<string>, url: string)

  /** The main input's `onKeyDown`: Enter submits unless the picker is open
      or the trimmed input is empty. */
  function EnterKey(p: Picker, key: string, inputValue: Option<string>): (r: Option<Submission>)
    ensures r.Some? <==> key == "Enter" && !p.showingCommand && Strings.Trim(inputValue.GetOr("")) != ""
    ensures r.Some? ==> r.value.tags == p.tagList
    ensures r.Some? ==> r.value.url == Strings.Trim(inputValue.value)
  {
    if key != "Enter" then None
    else if p.showingCommand then None
    else
      var urlValue := match inputValue case None => "" case Some(v) => Strings.Trim(v);
      if urlValue == "" then None
      else Some(Submission(p.tagList, urlValue))
  }

  /** The submitted URL is never empty and is its own trim. */
  lemma SubmittedUrlIsTrimmed(p: Picker, key: string, inputValue: Option<string>)
    ensures EnterKey(p, key, inputValue).Some? ==>
              var url := EnterKey(p, key, inputValue).value.url;
              |url| > 0 && Strings.IsTrimmed(url) && Strings.Trim(url) == url
  {
    var r := EnterKey(p, key, inputValue);
    if r.Some? {
      var t := Strings.Trim(inputValue.value);
      assert r.value.url == t && t != "";
      Strings.TrimIdempotent(inputValue.value);
    }
  }

  // ---------------------------------------------------------------------
  // The picker as a state machine

  datatype Event =
    | KeyDown(key: string, mainInputFocused: bool, value: string, selectionStart: Option<nat>)
    | OpenChange(open: bool)
    | ChooseOption(value: string)
    | ClickChosen(tagLabel: string)

  /** One event. Options can be chosen only while the picker is shown. */
  function Step(p: Picker, tags: seq<Tag>, e: Event): Picker {
    match e
    case KeyDown(key, focused, value, start) =>
      p.(showingCommand := SlashKey(p.showingCommand, key, focused, value, start).showingCommand)
    case OpenChange(open) => p.(showingCommand := open)
    case ChooseOption(v) => if p.showingCommand then Select(p, v) else p
    case ClickChosen(tagLabel) => RemoveTag(p, tags, tagLabel)
  }

  function Run(p: Picker, tags: seq<Tag>, events: seq<Event>): Picker
    decreases |events|
  {
    if |events| == 0 then p else Run(Step(p, tags, events[0]), tags, events[1..])
  }

  /** No two options share a label, and no two share a value. */
  predicate UniqueKeys(tags: seq<Tag>) {
    forall i, j :: 0 <= i < j < |tags| ==> tags[i].labelText != tags[j].labelText && tags[i].value != tags[j].value
  }

  function Labels(tags: seq<Tag>): set<string> {
    set t | t in tags :: t.labelText
  }

  /** The picker invariant for a `tags` prop: chosen labels are distinct
      labels of options, offered options are options, and an option is
      offered exactly when its label is not chosen. */
  ghost predicate Inv(p: Picker, tags: seq<Tag>) {
    && NoDup(p.tagList)
    && (forall l :: l in p.tagList ==> l in Labels(tags))
    && (forall a :: a in p.availableTags ==> a in tags)
    && (forall t :: t in tags ==> (t.labelText in p.tagList <==> t !in p.availableTags))
  }

  lemma SameValueSameTag(tags: seq<Tag>, s: Tag, t: Tag)
    requires UniqueKeys(tags) && s in tags && t in tags
    requires s.value == t.value || s.labelText == t.labelText
    ensures s == t
  {
    var i :| 0 <= i < |tags| && tags[i] == s;
    var j :| 0 <= j < |tags| && tags[j] == t;
  }

  lemma InitInv(tags: seq<Tag>)
    ensures Inv(Init(tags), tags)
  {
  }

  lemma SelectKeepsInv(p: Picker, tags: seq<Tag>, v: string)
    requires UniqueKeys(tags) && Inv(p, tags)
    ensures Inv(Select(p, v), tags)
  {
    var p' := Select(p, v);
    match FindByValue(p.availableTags, v)
    case None =>
    case Some(sel) =>
      assert sel in tags;
      forall t | t in tags
        ensures t.labelText in p'.tagList <==> t !in p'.availableTags
      {
        if t != sel {
          if t.value == sel.value || t.labelText == sel.labelText {
            SameValueSameTag(tags, sel, t);
          }
        }
      }
  }

  lemma RemoveTagKeepsInv(p: Picker, tags: seq<Tag>, tagLabel: string)
    requires UniqueKeys(tags) && Inv(p, tags)
    ensures Inv(RemoveTag(p, tags, tagLabel), tags)
  {
    var p' := RemoveTag(p, tags, tagLabel);
    match FindByLabel(tags, tagLabel)
    case None =>
      assert tagLabel !in Labels(tags);
      assert p'.tagList == p.tagList;
    case Some(o) =>
      if exists a :: a in p.availableTags && a.value == o.value {
        var a :| a in p.availableTags && a.value == o.value;
        SameValueSameTag(tags, a, o);
        assert tagLabel !in p.tagList;
        assert p'.tagList == p.tagList;
      } else {
        assert o !in p.availableTags;
        forall t | t in tags
          ensures t.labelText in p'.tagList <==> t !in p'.availableTags
        {
          if t != o && t.labelText == tagLabel {
            SameValueSameTag(tags, t, o);
          }
        }
      }
  }

  lemma StepKeepsInv(p: Picker, tags: seq<Tag>, e: Event)
    requires UniqueKeys(tags) && Inv(p, tags)
    ensures Inv(Step(p, tags, e), tags)
  {
    match e
    case KeyDown(_, _, _, _) =>
    case OpenChange(_) =>
    case ChooseOption(v) =>
      if p.showingCommand {
        SelectKeepsInv(p, tags, v);
      }
    case ClickChosen(tagLabel) => RemoveTagKeepsInv(p, tags, tagLabel);
  }

  /** From the initial state, whatever sequence of key presses, choices and
      removals follows: `tagList` has no duplicate, and an option's label is
      chosen exactly when the option is not offered. */
  lemma {:induction false} RunKeepsInv(tags: seq<Tag>, events: seq<Event>)
    requires UniqueKeys(tags)
    ensures var p := Run(Init(tags), tags, events);
      && NoDup(p.tagList)
      && forall t :: t in tags ==> (t.labelText in p.tagList <==> t !in p.availableTags)
  {
    InitInv(tags);
    RunFromInv(Init(tags), tags, events);
  }

  lemma {:induction false} RunFromInv(p: Picker, tags: seq<Tag>, events: seq<Event>)
    requires UniqueKeys(tags) && Inv(p, tags)
    ensures Inv(Run(p, tags, events), tags)
    decreases |events|
  {
    if |events| > 0 {
      StepKeepsInv(p, tags, events[0]);
      RunFromInv(Step(p, tags, events[0]), tags, events[1..]);
    }
  }

  /** Choosing an offered option and then removing its label restores the
      lists' contents: the label is no longer chosen and the option is
      offered again. */
  lemma SelectThenRemove(p: Picker, tags: seq<Tag>, o: Tag)
    requires UniqueKeys(tags) && Inv(p, tags)
    requires o in p.availableTags
    ensures var p' := RemoveTag(Select(p, o.value), tags, o.labelText);
      && o.labelText !in p'.tagList
      && o in p'.availableTags
      && (forall x :: x in p'.tagList <==> x in p.tagList)
      && (forall t :: t in p'.availableTags <==> t in p.availableTags)
  {
    var p1 := Select(p, o.value);
    var sel := FindByValue(p.availableTags, o.value).value;
    SameValueSameTag(tags, sel, o);
    var f := FindByLabel(tags, o.labelText).value;
    SameValueSameTag(tags, f, o);
    assert forall a :: a in p1.availableTags ==> a.value != o.value;
  }
}

=== FILE: seqs.dfy ===
/** Facts about sequences shared by the picker and the tags handler. */
module Seqs {

  /** No element occurs twice. */
  predicate NoDup<T(==)>(xs: seq<T>) {
    forall i, j :: 0 <= i < j < |xs| ==> xs[i] != xs[j]
  }

  /** Some element satisfies `p`. */
  ghost predicate Any<T>(xs: seq<T>, p: T -> bool) {
    exists j :: 0 <= j < |xs| && p(xs[j])
  }

  /** Splitting off the head: an element of `xs` satisfies `p` exactly
      when the head does or some element of the tail does. */
  lemma AnyCons<T>(xs: seq<T>, p: T -> bool)
    requires |xs| > 0
    ensures Any(xs, p) <==> p(xs[0]) || Any(xs[1..], p)
  {
    if Any(xs, p) && !p(xs[0]) {
      var j :| 0 <= j < |xs| && p(xs[j]);
      assert xs[1..][j - 1] == xs[j];
    }
    if Any(xs[1..], p) {
      var j :| 0 <= j < |xs[1..]| && p(xs[1..][j]);
      assert xs[j + 1] == xs[1..][j];
    }
  }

  /** A sequence with no members is empty. */
  lemma NoMembersEmpty<T>(xs: seq<T>)
    ensures (forall x :: x !in xs) ==> xs == []
  {
    if xs != [] {
      assert xs[0] in xs;
    }
  }
}

=== FILE: smooth_caret.dfy ===
/** The smooth-caret text input: a hidden mirror element is filled with the
    input's text (spaces made non-breaking so they are not collapsed), its
    rendered width gives the caret's logical x-position, the input's
    horizontal scroll is subtracted, and the result is clamped inside the
    input's padding box. The native caret is pinned to the end of the value,
    and the drawn caret exists only while the input has focus.

    DOM readings are parameters: the mirror's text width is a function of
    the text it shows, `scrollLeft` and `clientWidth` are integers. */
module SmoothCaret {
  import opened Wrappers

  /** Left padding of the input (`pl-5`). */
  const PADDING_LEFT: int := 20
  /** Right padding of the input (`pr-5`). */
  const PADDING_RIGHT: int := 20
  /** Left padding of the mirror element (`pl-5`); its `offsetWidth` includes it. */
  const MIRROR_PADDING_LEFT: nat := 20
  /** U+00A0 NO-BREAK SPACE */
  const NBSP: char := '\U{00A0}'

  // ---------------------------------------------------------------------
  // Mirror text

  /** `s.replace(/ /g, "\u00A0")`: every plain space becomes a no-break space. */
  function ReplaceSpaces(s: string): (r: string)
    ensures |r| == |s|
    ensures forall i :: 0 <= i < |s| ==> r[i] == (if s[i] == ' ' then NBSP else s[i])
  {
    if |s| == 0 then ""
    else [if s[0] == ' ' then NBSP else s[0]] + ReplaceSpaces(s[1..])
  }

  /** `toMirrorText`: the text put into the measuring mirror. Same length
      as the value, no plain space left, every other character kept. */
  function ToMirrorText(s: string): (r: string)
    ensures |r| == |s|
    ensures ' ' !in r
    ensures forall i :: 0 <= i < |s| && s[i] != ' ' ==> r[i] == s[i]
    ensures forall i :: 0 <= i < |s| && s[i] == ' ' ==> r[i] == NBSP
  {
    if |s| > 0 then ReplaceSpaces(s) else ""
  }

  /** Mirroring twice is mirroring once. */
  lemma MirrorTextIdempotent(s: string)
    ensures ToMirrorText(ToMirrorText(s)) == ToMirrorText(s)
  {
  }

  /** Mirroring works character by character, so it distributes over
      concatenation: a run of spaces is mirrored as a run of the same length
      wherever it sits in the value. */
  lemma {:induction false} MirrorTextConcat(a: string, b: string)
    ensures ToMirrorText(a + b) == ToMirrorText(a) + ToMirrorText(b)
  {
    var m := ToMirrorText(a + b);
    var n := ToMirrorText(a) + ToMirrorText(b);
    assert |m| == |n|;
    forall i | 0 <= i < |m|
      ensures m[i] == n[i]
    {
      if i < |a| {
        assert (a + b)[i] == a[i];
      } else {
        assert (a + b)[i] == b[i - |a|];
      }
    }
  }

  /** Two values have the same mirror text exactly when they agree
      everywhere except that a space in one may face a no-break space in
      the other. */
  lemma MirrorTextEqualIff(s: string, t: string)
    ensures ToMirrorText(s) == ToMirrorText(t) <==>
      && |s| == |t|
      && forall i :: 0 <= i < |s| ==> (s[i] == t[i] || (s[i] in {' ', NBSP} && t[i] in {' ', NBSP}))
  {
    var ms, mt := ToMirrorText(s), ToMirrorText(t);
    if |s| == |t| && forall i :: 0 <= i < |s| ==> (s[i] == t[i] || (s[i] in {' ', NBSP} && t[i] in {' ', NBSP})) {
      forall i | 0 <= i < |s|
        ensures ms[i] == mt[i]
      {
      }
    }
    if ms == mt {
      forall i | 0 <= i < |s|
        ensures s[i] == t[i] || (s[i] in {' ', NBSP} && t[i] in {' ', NBSP})
      {
        assert ms[i] == mt[i];
      }
    }
  }

  // ---------------------------------------------------------------------
  // Measurement

  /** The caret's left edge, given the mirror's `offsetWidth`, the input's
      `scrollLeft` and its `clientWidth`: the scrolled text end clamped to
      `[PADDING_LEFT, clientWidth - PADDING_RIGHT]`, the lower bound winning
      when the input is narrower than its padding. */
  function CaretLeft(rawWidth: int, scrollLeft: int, clientWidth: int): (x: int)
    ensures x >= PADDING_LEFT
    ensures clientWidth - PADDING_RIGHT >= PADDING_LEFT ==> x <= clientWidth - PADDING_RIGHT
    ensures PADDING_LEFT <= rawWidth - scrollLeft <= clientWidth - PADDING_RIGHT ==> x == rawWidth - scrollLeft
    ensures rawWidth - scrollLeft <= PADDING_LEFT ==> x == PADDING_LEFT
    ensures rawWidth - scrollLeft >= clientWidth - PADDING_RIGHT >= PADDING_LEFT ==> x == clientWidth - PADDING_RIGHT
  {
    var scrolledX := rawWidth - scrollLeft;
    var maxX := clientWidth - PADDING_RIGHT;
    Max(PADDING_LEFT, Min(scrolledX, maxX))
  }

  function Min(a: int, b: int): int { if a <= b then a else b }
  function Max(a: int, b: int): int { if a >= b then a else b }

  /** With the other readings fixed, a wider text never moves the caret left. */
  lemma CaretLeftMonotoneInWidth(w1: int, w2: int, scrollLeft: int, clientWidth: int)
    requires w1 <= w2
    ensures CaretLeft(w1, scrollLeft, clientWidth) <= CaretLeft(w2, scrollLeft, clientWidth)
  {
  }

  /** With the other readings fixed, scrolling further right never moves the caret right. */
  lemma CaretLeftAntitoneInScroll(width: int, s1: int, s2: int, clientWidth: int)
    requires s1 <= s2
    ensures CaretLeft(width, s1, clientWidth) >= CaretLeft(width, s2, clientWidth)
  {
  }

  /** Scrolling by `d` shifts the caret by exactly `d` while neither clamp is active. */
  lemma CaretFollowsScroll(width: int, scrollLeft: int, d: int, clientWidth: int)
    requires PADDING_LEFT <= width - scrollLeft <= clientWidth - PADDING_RIGHT
    requires PADDING_LEFT <= width - (scrollLeft + d) <= clientWidth - PADDING_RIGHT
    ensures CaretLeft(width, scrollLeft + d, clientWidth) == CaretLeft(width, scrollLeft, clientWidth) - d
  {
  }

  /** The input element as `measure` and `placeNativeCaretAtEnd` read it.
      `acceptsSelection` is false when `setSelectionRange` would throw. */
  datatype InputEl = InputEl(value: string, scrollLeft: int, clientWidth: int,
                             selection: Selection, acceptsSelection: bool)

  /** The native selection, as `selectionStart`/`selectionEnd`. */
  datatype Selection = Selection(start: nat, end: nat)

  /** The hidden mirror: the rendered width of a text set as its content. */
  datatype Mirror = Mirror(textWidth: string -> nat)

  /** `mirror.offsetWidth` once `mirror.textContent` is `text`: its left padding plus the text. */
  function OffsetWidth(mirror: Mirror, text: string): (w: int)
    ensures w >= MIRROR_PADDING_LEFT
  {
    MIRROR_PADDING_LEFT + mirror.textWidth(text)
  }

  /** `measure`: the new `caretX`. With either ref unset nothing is read and
      the previous `caretX` stays. */
  function Measure(caretX: int, input: Option<InputEl>, mirror: Option<Mirror>): (x: int)
    ensures input.None? || mirror.None? ==> x == caretX
    ensures input.Some? && mirror.Some? ==>
      && x >= PADDING_LEFT
      && (input.value.clientWidth - PADDING_RIGHT >= PADDING_LEFT ==> x <= input.value.clientWidth - PADDING_RIGHT)
      && x == CaretLeft(OffsetWidth(mirror.value, ToMirrorText(input.value.value)),
                        input.value.scrollLeft, input.value.clientWidth)
  {
    if input.None? || mirror.None? then caretX
    else
      var el := input.value;
      var rawWidth := OffsetWidth(mirror.value, ToMirrorText(el.value));
      CaretLeft(rawWidth, el.scrollLeft, el.clientWidth)
  }

  /** Measuring again with the same readings changes nothing. */
  lemma MeasureIdempotent(caretX: int, input: Option<InputEl>, mirror: Option<Mirror>)
    ensures Measure(Measure(caretX, input, mirror), input, mirror) == Measure(caretX, input, mirror)
  {
  }

  /** An empty, unscrolled value puts the caret at the left padding. */
  lemma EmptyValueCaretAtPadding(input: InputEl, mirror: Mirror)
    requires input.value == "" && input.scrollLeft == 0
    requires mirror.textWidth("") == 0
    ensures Measure(0, Some(input), Some(mirror)) == PADDING_LEFT
  {
  }

  /** Text that fits in an unscrolled input puts the caret right after it. */
  lemma FittingTextCaretAfterText(input: InputEl, mirror: Mirror)
    requires input.scrollLeft == 0
    requires MIRROR_PADDING_LEFT + mirror.textWidth(ToMirrorText(input.value)) <= input.clientWidth - PADDING_RIGHT
    ensures Measure(0, Some(input), Some(mirror)) == MIRROR_PADDING_LEFT + mirror.textWidth(ToMirrorText(input.value))
  {
  }

  // ---------------------------------------------------------------------
  // Native caret

  /** `placeNativeCaretAtEnd`, as the state after its deferred frame: a
      collapsed selection at the end of the value; no change when the ref is
      unset or the element refuses the selection. */
  function PlaceNativeCaretAtEnd(input: Option<InputEl>): (r: Option<InputEl>)
    ensures r.None? <==> input.None?
    ensures r.Some? ==> r.value.(selection := input.value.selection) == input.value
    ensures r.Some? && input.value.acceptsSelection ==>
      r.value.selection.start == r.value.selection.end == |input.value.value|
    ensures r.Some? && !input.value.acceptsSelection ==> r == input
  {
    match input
    case None => None
    case Some(el) =>
      if el.acceptsSelection then
        var end := |el.value|;
        Some(el.(selection := Selection(end, end)))
      else input
  }

  lemma PlaceNativeCaretAtEndIdempotent(input: Option<InputEl>)
    ensures PlaceNativeCaretAtEnd(PlaceNativeCaretAtEnd(input)) == PlaceNativeCaretAtEnd(input)
  {
  }

  // ---------------------------------------------------------------------
  // The component

  /** Component state: the controlled `value`, `focused`, `caretX`, and
      the native selection of the input. */
  datatype Demo = Demo(value: string, focused: bool, caretX: int, selection: Selection)

  /** What the DOM reports when an event is handled. */
  datatype Env = Env(inputMounted: bool, mirror: Option<Mirror>,
                     scrollLeft: int, clientWidth: int, acceptsSelection: bool)

  datatype Event =
    | Mount            // first layout effect
    | Change(v: string)
    | Focus
    | Blur
    | Scroll
    | Resize

  const Initial: Demo := Demo("", false, 0, Selection(0, 0))

  /** `inputRef.current` for a state and environment. */
  function InputOf(d: Demo, env: Env): Option<InputEl> {
    if env.inputMounted
    then Some(InputEl(d.value, env.scrollLeft, env.clientWidth, d.selection, env.acceptsSelection))
    else None
  }

  function MeasureIn(d: Demo, env: Env): int {
    Measure(d.caretX, InputOf(d, env), env.mirror)
  }

  function PinSelection(d: Demo, env: Env): Selection {
    match PlaceNativeCaretAtEnd(InputOf(d, env))
    case None => d.selection
    case Some(el) => el.selection
  }

  /** The component's reaction to one event. `handleChange` stores the value
      and pins the native caret; the layout effect on `value` measures only
      when the value actually changed. `handleFocus` sets `focused`, pins
      the caret and measures; `handleBlur` only clears `focused`; scroll and
      window resize measure. */
  function Step(d: Demo, e: Event, env: Env): (d': Demo)
    ensures e.Change? ==> d'.value == e.v
    ensures !e.Change? ==> d'.value == d.value
    ensures e.Focus? ==> d'.focused
    ensures e.Blur? ==> !d'.focused && d'.caretX == d.caretX && d'.selection == d.selection
    ensures !e.Focus? && !e.Blur? ==> d'.focused == d.focused
    ensures (e.Change? || e.Focus?) && env.inputMounted && env.acceptsSelection ==>
      d'.selection == Selection(|d'.value|, |d'.value|)
    ensures d'.caretX == d.caretX || d'.caretX >= PADDING_LEFT
    ensures env.inputMounted && env.mirror.Some? && (e.Focus? || e.Scroll? || e.Resize? || e.Mount?) ==>
      d'.caretX >= PADDING_LEFT
    ensures !env.inputMounted || env.mirror.None? ==> d'.caretX == d.caretX
  {
    match e
    case Mount => d.(caretX := MeasureIn(d, env))
    case Change(v) =>
      var d1 := d.(value := v);
      var d2 := d1.(selection := PinSelection(d1, env));
      if v != d.value then d2.(caretX := MeasureIn(d2, env)) else d2
    case Focus =>
      var d1 := d.(focused := true);
      var d2 := d1.(selection := PinSelection(d1, env));
      d2.(caretX := MeasureIn(d2, env))
    case Blur => d.(focused := false)
    case Scroll => d.(caretX := MeasureIn(d, env))
    case Resize => d.(caretX := MeasureIn(d, env))
  }

  /** The animated caret element is rendered exactly while the input is focused. */
  predicate CaretRendered(d: Demo) {
    d.focused
  }

  /** Runs a sequence of events, each with the DOM readings of its moment. */
  function Run(d: Demo, events: seq<(Event, Env)>): Demo
    decreases |events|
  {
    if |events| == 0 then d
    else Run(Step(d, events[0].0, events[0].1), events[1..])
  }

  /** Whatever events arrive, `caretX` is either still its initial 0 or at
      least the left padding: no measurement ever places the caret inside
      the padding. */
  lemma {:induction false} RunKeepsCaretInPadding(d: Demo, events: seq<(Event, Env)>)
    requires d.caretX == 0 || d.caretX >= PADDING_LEFT
    ensures var d' := Run(d, events); d'.caretX == 0 || d'.caretX >= PADDING_LEFT
    decreases |events|
  {
    if |events| > 0 {
      RunKeepsCaretInPadding(Step(d, events[0].0, events[0].1), events[1..]);
    }
  }

  /** Focus shows the caret and blur hides it, whatever came before. */
  lemma FocusShowsBlurHides(d: Demo, env: Env)
    ensures CaretRendered(Step(d, Focus, env))
    ensures !CaretRendered(Step(d, Blur, env))
  {
  }

  /** Typing while focused keeps the caret drawn and, once measured, inside the input. */
  lemma ChangeWhileFocused(d: Demo, v: string, env: Env)
    requires d.focused && v != d.value
    requires env.inputMounted && env.mirror.Some?
    requires env.clientWidth - PADDING_RIGHT >= PADDING_LEFT
    ensures var d' := Step(d, Change(v), env);
      && CaretRendered(d')
      && PADDING_LEFT <= d'.caretX <= env.clientWidth - PADDING_RIGHT
  {
  }
}

=== FILE: strings.dfy ===
/** The JavaScript string primitives the components rely on: the whitespace
    class of `String.prototype.trim` and of the regular expression `\s`,
    `startsWith`/`endsWith`, `indexOf`, `split` and `Array.prototype.join`
    with a non-empty separator, and the integer subset of `Number(...)`. */
module Strings {
  import opened Wrappers

  /** ECMAScript WhiteSpace and LineTerminator code points: what `trim`
      removes from both ends and what `\s` matches. */
  const WHITESPACE: set<char> := {
    '\t', '\n', '\U{000B}', '\U{000C}', '\r', ' ', '\U{00A0}', '\U{1680}',
    '\U{2000}', '\U{2001}', '\U{2002}', '\U{2003}', '\U{2004}', '\U{2005}',
    '\U{2006}', '\U{2007}', '\U{2008}', '\U{2009}', '\U{200A}',
    '\U{2028}', '\U{2029}', '\U{202F}', '\U{205F}', '\U{3000}', '\U{FEFF}'
  }

  predicate IsWhitespace(c: char) {
    c in WHITESPACE
  }

  predicate AllWhitespace(s: string) {
    forall i :: 0 <= i < |s| ==> IsWhitespace(s[i])
  }

  /** No whitespace at either end: what `trim` leaves. */
  predicate IsTrimmed(s: string) {
    |s| == 0 || (!IsWhitespace(s[0]) && !IsWhitespace(s[|s| - 1]))
  }

  /** `s.startsWith(p)` */
  predicate StartsWith(s: string, p: string) {
    |p| <= |s| && s[..|p|] == p
  }

  /** `s.endsWith(p)` */
  predicate EndsWith(s: string, p: string) {
    |p| <= |s| && s[|s| - |p|..] == p
  }

  // ---------------------------------------------------------------------
  // trim

  /** `s.trimStart()`: the suffix of `s` left after dropping leading whitespace. */
  function TrimStart(s: string): (r: string)
    ensures |r| <= |s| && r == s[|s| - |r|..]
    ensures AllWhitespace(s[..|s| - |r|])
    ensures |r| > 0 ==> !IsWhitespace(r[0])
  {
    if |s| > 0 && IsWhitespace(s[0]) then
      var r := TrimStart(s[1..]);
      TrimStartStep(s, r);
      r
    else s
  }

  /** Dropping one more leading whitespace character extends the dropped run. */
  lemma TrimStartStep(s: string, r: string)
    requires |s| > 0 && IsWhitespace(s[0])
    requires |r| <= |s| - 1 && r == s[1..][|s| - 1 - |r|..]
    requires AllWhitespace(s[1..][..|s| - 1 - |r|])
    ensures r == s[|s| - |r|..]
    ensures AllWhitespace(s[..|s| - |r|])
  {
    var n := |s| - |r|;
    assert s[1..][n - 1..] == s[n..];
    forall k | 0 <= k < n
      ensures IsWhitespace(s[..n][k])
    {
      if k > 0 {
        assert s[..n][k] == s[1..][..n - 1][k - 1];
      }
    }
  }

  /** `s.trimEnd()`: the prefix of `s` left after dropping trailing whitespace. */
  function TrimEnd(s: string): (r: string)
    ensures |r| <= |s| && r == s[..|r|]
    ensures AllWhitespace(s[|r|..])
    ensures |r| > 0 ==> !IsWhitespace(r[|r| - 1])
  {
    if |s| > 0 && IsWhitespace(s[|s| - 1]) then
      var r := TrimEnd(s[..|s| - 1]);
      TrimEndStep(s, r);
      r
    else s
  }

  /** Dropping one more trailing whitespace character extends the dropped run. */
  lemma TrimEndStep(s: string, r: string)
    requires |s| > 0 && IsWhitespace(s[|s| - 1])
    requires |r| <= |s| - 1 && r == s[..|s| - 1][..|r|]
    requires AllWhitespace(s[..|s| - 1][|r|..])
    ensures r == s[..|r|]
    ensures AllWhitespace(s[|r|..])
  {
    var n := |r|;
    assert s[..|s| - 1][..n] == s[..n];
    forall k | 0 <= k < |s| - n
      ensures IsWhitespace(s[n..][k])
    {
      if k < |s| - 1 - n {
        assert s[n..][k] == s[..|s| - 1][n..][k];
      }
    }
  }

  /** `r` is what remains of `s` once the whitespace runs `s[..i]` and
      `s[i + |r|..]` around it are cut away. */
  predicate TrimmedAt(s: string, r: string, i: nat) {
    i + |r| <= |s| && s[i..i + |r|] == r && AllWhitespace(s[..i]) && AllWhitespace(s[i + |r|..])
  }

  /** `s.trim()` */
  function Trim(s: string): (r: string)
    ensures IsTrimmed(r)
    ensures |r| == 0 <==> AllWhitespace(s)
    ensures exists i: nat :: TrimmedAt(s, r, i)
  {
    TrimBothEnds(s);
    TrimEnd(TrimStart(s))
  }

  lemma TrimBothEnds(s: string)
    ensures TrimmedAt(s, TrimEnd(TrimStart(s)), |s| - |TrimStart(s)|)
    ensures |TrimEnd(TrimStart(s))| == 0 <==> AllWhitespace(s)
  {
    var t := TrimStart(s);
    var i := |s| - |t|;
    TrimmedAtEnd(s, i, t, TrimEnd(t));
  }

  lemma TrimmedAtEnd(s: string, i: nat, t: string, r: string)
    requires i <= |s| && t == s[i..] && AllWhitespace(s[..i])
    requires |t| > 0 ==> !IsWhitespace(t[0])
    requires |r| <= |t| && r == t[..|r|] && AllWhitespace(t[|r|..])
    ensures TrimmedAt(s, r, i)
    ensures |r| == 0 <==> AllWhitespace(s)
  {
    assert s[i..i + |r|] == r;
    assert s[i + |r|..] == t[|r|..];
    if |r| == 0 {
      WhitespaceConcat(s[..i], t);
      assert s == s[..i] + t;
    } else {
      assert r[0] == t[0] == s[i];
    }
  }

  lemma WhitespaceConcat(a: string, b: string)
    requires AllWhitespace(a) && AllWhitespace(b)
    ensures AllWhitespace(a + b)
  {
    forall k | 0 <= k < |a + b|
      ensures IsWhitespace((a + b)[k])
    {
      if k >= |a| {
        assert (a + b)[k] == b[k - |a|];
      }
    }
  }

  /** A string with no whitespace at either end is its own trim; in
      particular every trimmed string is. */
  lemma TrimOfTrimmed(s: string)
    requires IsTrimmed(s)
    ensures Trim(s) == s
  {
    assert TrimStart(s) == s;
  }

  /** `trim` is idempotent. */
  lemma TrimIdempotent(s: string)
    ensures Trim(Trim(s)) == Trim(s)
  {
    TrimOfTrimmed(Trim(s));
  }

  // ---------------------------------------------------------------------
  // indexOf, split, join

  /** `sep` occurs in `s` starting at position `i`. */
  predicate OccursAt(s: string, sep: string, i: nat) {
    i + |sep| <= |s| && s[i..i + |sep|] == sep
  }

  predicate NoOccurrence(s: string, sep: string) {
    forall i: nat :: i <= |s| ==> !OccursAt(s, sep, i)
  }

  /** `s.indexOf(sep, from)`, None standing for -1. */
  function IndexOf(s: string, sep: string, from: nat): (r: Option<nat>)
    decreases |s| - from
    ensures r.Some? ==> from <= r.value && OccursAt(s, sep, r.value)
    ensures r.Some? ==> forall j: nat :: from <= j < r.value ==> !OccursAt(s, sep, j)
    ensures r.None? <==> forall j: nat :: from <= j ==> !OccursAt(s, sep, j)
  {
    if from + |sep| > |s| then None
    else if OccursAt(s, sep, from) then Some(from)
    else IndexOf(s, sep, from + 1)
  }

  /** `xs.join(sep)` */
  function Join(xs: seq<string>, sep: string): string
  {
    if |xs| == 0 then ""
    else if |xs| == 1 then xs[0]
    else xs[0] + sep + Join(xs[1..], sep)
  }

  lemma JoinCons(x: string, ys: seq<string>, sep: string)
    requires |ys| > 0
    ensures Join([x] + ys, sep) == x + sep + Join(ys, sep)
  {
    assert ([x] + ys)[1..] == ys;
  }

  /** A piece cut out of `s` before the first occurrence of `sep` holds no occurrence. */
  lemma PrefixBeforeFirst(s: string, sep: string, k: nat)
    requires |sep| > 0 && k <= |s|
    requires forall j: nat :: j < k ==> !OccursAt(s, sep, j)
    ensures NoOccurrence(s[..k], sep)
  {
    forall j: nat | OccursAt(s[..k], sep, j)
      ensures false
    {
      assert s[..k][j..j + |sep|] == s[j..j + |sep|];
      assert OccursAt(s, sep, j);
    }
  }

  lemma SuffixAfterLast(s: string, sep: string, k: nat)
    requires k <= |s|
    requires forall j: nat :: k <= j ==> !OccursAt(s, sep, j)
    ensures NoOccurrence(s[k..], sep)
  {
    forall j: nat | OccursAt(s[k..], sep, j)
      ensures false
    {
      assert s[k..][j..j + |sep|] == s[k + j..k + j + |sep|];
      assert OccursAt(s, sep, k + j);
    }
  }

  /** `s.split(sep)` for a non-empty string separator: the pieces between
      successive left-to-right occurrences of `sep`. Joining them back with
      `sep` gives `s`, and no piece holds `sep`. */
  function Split(s: string, sep: string): (r: seq<string>)
    requires |sep| > 0
    decreases |s|
    ensures |r| >= 1
    ensures Join(r, sep) == s
    ensures IndexOf(s, sep, 0).None? ==> r == [s]
    ensures IndexOf(s, sep, 0).Some? ==> |r[0]| == IndexOf(s, sep, 0).value
    ensures forall i :: 0 <= i < |r| ==> NoOccurrence(r[i], sep)
  {
    match IndexOf(s, sep, 0)
    case None =>
      SuffixAfterLast(s, sep, 0);
      [s]
    case Some(k) =>
      var rest := Split(s[k + |sep|..], sep);
      SplitCons(s, sep, k, rest);
      [s[..k]] + rest
  }

  /** The piece before the first occurrence, followed by the split of what
      comes after it, is a split of `s`. */
  lemma SplitCons(s: string, sep: string, k: nat, rest: seq<string>)
    requires |sep| > 0 && OccursAt(s, sep, k)
    requires forall j: nat :: j < k ==> !OccursAt(s, sep, j)
    requires |rest| >= 1 && Join(rest, sep) == s[k + |sep|..]
    requires forall i :: 0 <= i < |rest| ==> NoOccurrence(rest[i], sep)
    ensures Join([s[..k]] + rest, sep) == s
    ensures forall i :: 0 <= i < |[s[..k]] + rest| ==> NoOccurrence(([s[..k]] + rest)[i], sep)
  {
    SplitConsJoin(s, sep, k, rest);
    PrefixBeforeFirst(s, sep, k);
    PiecesCons(s[..k], rest, sep);
  }

  lemma SplitConsJoin(s: string, sep: string, k: nat, rest: seq<string>)
    requires OccursAt(s, sep, k)
    requires |rest| >= 1 && Join(rest, sep) == s[k + |sep|..]
    ensures Join([s[..k]] + rest, sep) == s
  {
    var x, tail := s[..k], s[k + |sep|..];
    JoinCons(x, rest, sep);
    assert Join([x] + rest, sep) == x + sep + tail;
    SliceThree(s, k, k + |sep|);
  }

  lemma SliceThree(s: string, a: nat, b: nat)
    requires a <= b <= |s|
    ensures s == s[..a] + s[a..b] + s[b..]
  {
    assert s[..a] + s[a..b] == s[..b];
  }

  lemma PiecesCons(x: string, rest: seq<string>, sep: string)
    requires NoOccurrence(x, sep)
    requires forall i :: 0 <= i < |rest| ==> NoOccurrence(rest[i], sep)
    ensures forall i :: 0 <= i < |[x] + rest| ==> NoOccurrence(([x] + rest)[i], sep)
  {
    forall i | 0 <= i < |[x] + rest|
      ensures NoOccurrence(([x] + rest)[i], sep)
    {
      if i > 0 {
        assert ([x] + rest)[i] == rest[i - 1];
      }
    }
  }

  /** When the separator's first character occurs in none of the pieces,
      `split` undoes `join`. */
  lemma {:induction false} SplitJoin(xs: seq<string>, sep: string)
    requires |sep| > 0 && |xs| >= 1
    requires forall i :: 0 <= i < |xs| ==> sep[0] !in xs[i]
    ensures Split(Join(xs, sep), sep) == xs
  {
    var s := Join(xs, sep);
    if |xs| == 1 {
      assert IndexOf(s, sep, 0).None?;
    } else {
      var x := xs[0];
      var rest := Join(xs[1..], sep);
      assert s == x + sep + rest;
      assert OccursAt(s, sep, |x|) by {
        assert s[|x|..|x| + |sep|] == sep;
      }
      var r := IndexOf(s, sep, 0);
      assert r == Some(|x|);
      assert s[..|x|] == x;
      assert s[|x| + |sep|..] == rest;
      SplitJoin(xs[1..], sep);
      assert xs == [x] + xs[1..];
    }
  }

  /** The `i`-th slot of an array, `undefined` past the end, as in `const [a, b] = xs`. */
  function At(xs: seq<string>, i: nat): Option<string> {
    if i < |xs| then Some(xs[i]) else None
  }

  /** JavaScript truthiness of a string-or-undefined value. */
  predicate Truthy(o: Option<string>) {
    o.Some? && o.value != ""
  }

  // ---------------------------------------------------------------------
  // Number(...)

  predicate IsDigit(c: char) {
    '0' <= c <= '9'
  }

  predicate AllDigits(s: string) {
    forall i :: 0 <= i < |s| ==> IsDigit(s[i])
  }

  /** The value of a string of decimal digits. */
  function DigitsValue(s: string): nat
    requires AllDigits(s)
  {
    if |s| == 0 then 0
    else 10 * DigitsValue(s[..|s| - 1]) + (s[|s| - 1] as int - '0' as int)
  }

  /** The decimal rendering of a natural number, no leading zeros. */
  function ShowNat(n: nat): (r: string)
    ensures |r| > 0 && AllDigits(r)
    ensures DigitsValue(r) == n
  {
    var d := [(('0' as int) + n % 10) as char];
    if n < 10 then d
    else
      var p := ShowNat(n / 10);
      var r := p + d;
      assert r[..|r| - 1] == p;
      r
  }

  /** The result of `Number(...)` as far as this model needs it. */
  datatype Num = NaN | Int(value: int) {
    /** `n - 1` */
    function Pred(): (r: Num)
      ensures r.NaN? <==> this.NaN?
      ensures r.Int? ==> r.value + 1 == this.value
    {
      match this
      case NaN => NaN
      case Int(v) => Int(v - 1)
    }
  }

  /** `Number(s)` for `s` a string or `undefined`: `undefined` is NaN; the
      argument is trimmed; the empty string is 0; an optional sign followed
      by decimal digits is that integer; anything else is NaN. */
  function ToNumber(s: Option<string>): (n: Num)
    ensures s.None? ==> n.NaN?
    ensures s.Some? && AllWhitespace(s.value) ==> n == Int(0)
    ensures s.Some? && |s.value| > 0 && AllDigits(s.value) ==> n == Int(DigitsValue(s.value))
  {
    match s
    case None => NaN
    case Some(str) =>
      var t := Trim(str);
      DigitsAreTrimmed(str);
      if t == "" then Int(0)
      else if AllDigits(t) then Int(DigitsValue(t))
      else if t[0] == '+' && |t| > 1 && AllDigits(t[1..]) then Int(DigitsValue(t[1..]))
      else if t[0] == '-' && |t| > 1 && AllDigits(t[1..]) then Int(-(DigitsValue(t[1..]) as int))
      else NaN
  }

  lemma DigitsAreTrimmed(s: string)
    ensures |s| > 0 && AllDigits(s) ==> Trim(s) == s
  {
    if |s| > 0 && AllDigits(s) {
      TrimOfTrimmed(s);
    }
  }

  /** 2^53: every natural number up to it is an IEEE double exactly, so
      `Number` returns it unrounded. */
  const MAX_EXACT: nat := 0x20_0000_0000_0000

  /** `Number` reads back what `ShowNat` writes, for numbers a double holds exactly. */
  lemma NumberOfShowNat(n: nat)
    requires n <= MAX_EXACT
    ensures ToNumber(Some(ShowNat(n))) == Int(n)
  {
  }
}

=== FILE: tags_route.dfy ===
/** The `GET /api/tags` handler: every bookmark row's `tags` column (a JSON
    array, or a string holding one) is flattened; string elements are
    trimmed, blanks dropped, duplicates merged; the distinct tags are
    sorted and returned as one plain-text line joined by ", ".

    `JSON.parse` is taken as already done: a string column arrives with the
    outcome of parsing it. `localeCompare` is replaced by code-point
    lexicographic order. */
module TagsRoute {
  import opened Wrappers
  import Strings
  import opened Seqs

  /** A decoded JSON value. */
  datatype Json =
    | JNull
    | JBool(b: bool)
    | JNumber(n: real)
    | JString(s: string)
    | JArray(items: seq<Json>)
    | JObject(fields: seq<(string, Json)>)

  /** A column value that is neither an array nor a string. */
  datatype OtherValue =
    | ONull
    | OBool(b: bool)
    | ONumber(n: real)
    | OObject(fields: seq<(string, Json)>)

  /** A row's raw `tags` column: already an array, a string together with
      what `JSON.parse` made of it (None when it threw), or anything else. */
  datatype RawTags =
    | RawArray(items: seq<Json>)
    | RawString(text: string, parsed: Option<Json>)
    | RawOther(value: OtherValue)

  /** The elements a row contributes to the loop over `bookmarkTags`. */
  function BookmarkTags(raw: RawTags): (items: seq<Json>)
    ensures raw.RawArray? ==> items == raw.items
    ensures raw.RawString? && raw.parsed.Some? && raw.parsed.value.JArray? ==> items == raw.parsed.value.items
    ensures raw.RawOther? ==> items == []
    ensures raw.RawString? && (raw.parsed.None? || !raw.parsed.value.JArray?) ==> items == []
  {
    match raw
    case RawArray(items) => items
    case RawString(_, parsed) =>
      if parsed.Some? && parsed.value.JArray? then parsed.value.items else []
    case RawOther(_) => []
  }

  /** The tag an element yields: its trim, when it is a string whose trim
      is not empty (`typeof tag === "string" && tag.trim()`). */
  function ElementTag(x: Json): (r: Option<string>)
    ensures r.Some? <==> x.JString? && !Strings.AllWhitespace(x.s)
    ensures r.Some? ==> r.value == Strings.Trim(x.s) && IsCleanTag(r.value)
  {
    if x.JString? && Strings.Trim(x.s) != "" then Some(Strings.Trim(x.s)) else None
  }

  /** `x` is a string whose trim is the non-empty tag `t`. */
  predicate Emits(x: Json, t: string) {
    ElementTag(x) == Some(t)
  }

  /** Some element of the row emits `t`. */
  predicate RowEmits(raw: RawTags, t: string) {
    exists j :: 0 <= j < |BookmarkTags(raw)| && Emits(BookmarkTags(raw)[j], t)
  }

  /** A tag as the output list holds it: not empty, no whitespace at
      either end (so `Strings.TrimOfTrimmed` makes it its own trim). */
  predicate IsCleanTag(t: string) {
    |t| > 0 && Strings.IsTrimmed(t)
  }

  /** `uniqueTags.add(tag.trim())` for a string element whose trim is
      non-empty; other elements leave the set alone. The set is a sequence
      in insertion order, as a JavaScript `Set` iterates. */
  function AddTag(acc: seq<string>, x: Json): (r: seq<string>)
    ensures forall t :: t in r <==> t in acc || Emits(x, t)
  {
    match ElementTag(x)
    case None => acc
    case Some(t) => if t in acc then acc else acc + [t]
  }

  /** Adding keeps the set free of duplicates and of unclean tags. */
  lemma AddTagKeeps(acc: seq<string>, x: Json)
    ensures NoDup(acc) ==> NoDup(AddTag(acc, x))
    ensures (forall t :: t in acc ==> IsCleanTag(t)) ==> forall t :: t in AddTag(acc, x) ==> IsCleanTag(t)
  {
  }

  /** Some element of `items` emits `t`. */
  ghost predicate AnyEmits(items: seq<Json>, t: string) {
    exists j :: 0 <= j < |items| && Emits(items[j], t)
  }

  lemma AnyEmitsCons(items: seq<Json>)
    requires |items| > 0
    ensures forall t :: AnyEmits(items, t) <==> Emits(items[0], t) || AnyEmits(items[1..], t)
  {
    forall t ensures AnyEmits(items, t) <==> Emits(items[0], t) || AnyEmits(items[1..], t) {
      AnyCons(items, x => Emits(x, t));
      assert AnyEmits(items, t) <==> Any(items, x => Emits(x, t));
      assert AnyEmits(items[1..], t) <==> Any(items[1..], x => Emits(x, t));
    }
  }

  /** The inner loop over one row's elements. */
  function AddAll(acc: seq<string>, items: seq<Json>): (r: seq<string>)
    decreases |items|
    ensures forall t :: t in r <==> t in acc || AnyEmits(items, t)
  {
    if |items| == 0 then acc
    else
      AnyEmitsCons(items);
      AddAll(AddTag(acc, items[0]), items[1..])
  }

  lemma {:induction false} AddAllKeeps(acc: seq<string>, items: seq<Json>)
    decreases |items|
    ensures NoDup(acc) ==> NoDup(AddAll(acc, items))
    ensures (forall t :: t in acc ==> IsCleanTag(t)) ==> forall t :: t in AddAll(acc, items) ==> IsCleanTag(t)
  {
    if |items| > 0 {
      AddTagKeeps(acc, items[0]);
      AddAllKeeps(AddTag(acc, items[0]), items[1..]);
    }
  }

  /** Some row emits `t`. */
  ghost predicate AnyRowEmits(rows: seq<RawTags>, t: string) {
    exists i :: 0 <= i < |rows| && RowEmits(rows[i], t)
  }

  lemma AnyRowEmitsCons(rows: seq<RawTags>)
    requires |rows| > 0
    ensures forall t :: AnyRowEmits(rows, t) <==> RowEmits(rows[0], t) || AnyRowEmits(rows[1..], t)
  {
    forall t ensures AnyRowEmits(rows, t) <==> RowEmits(rows[0], t) || AnyRowEmits(rows[1..], t) {
      AnyCons(rows, raw => RowEmits(raw, t));
      assert AnyRowEmits(rows, t) <==> Any(rows, raw => RowEmits(raw, t));
      assert AnyRowEmits(rows[1..], t) <==> Any(rows[1..], raw => RowEmits(raw, t));
    }
  }

  /** The outer loop over the rows. */
  function Collect(acc: seq<string>, rows: seq<RawTags>): (r: seq<string>)
    decreases |rows|
    ensures forall t :: t in r <==> t in acc || AnyRowEmits(rows, t)
  {
    if |rows| == 0 then acc
    else
      AnyRowEmitsCons(rows);
      Collect(AddAll(acc, BookmarkTags(rows[0])), rows[1..])
  }

  lemma {:induction false} CollectKeeps(acc: seq<string>, rows: seq<RawTags>)
    decreases |rows|
    ensures NoDup(acc) ==> NoDup(Collect(acc, rows))
    ensures (forall t :: t in acc ==> IsCleanTag(t)) ==> forall t :: t in Collect(acc, rows) ==> IsCleanTag(t)
  {
    if |rows| > 0 {
      AddAllKeeps(acc, BookmarkTags(rows[0]));
      CollectKeeps(AddAll(acc, BookmarkTags(rows[0])), rows[1..]);
    }
  }

  // ---------------------------------------------------------------------
  // Ordering and sorting

  /** Code-point lexicographic order, a proper prefix first. */
  predicate Less(a: string, b: string)
    decreases |a|
  {
    if |a| == 0 then |b| > 0
    else if |b| == 0 then false
    else if a[0] != b[0] then a[0] < b[0]
    else Less(a[1..], b[1..])
  }

  lemma {:induction false} LessIrreflexive(a: string)
    ensures !Less(a, a)
    decreases |a|
  {
    if |a| > 0 {
      LessIrreflexive(a[1..]);
    }
  }

  lemma {:induction false} LessTransitive(a: string, b: string, c: string)
    requires Less(a, b) && Less(b, c)
    ensures Less(a, c)
    decreases |a|
  {
    if |a| > 0 && a[0] == b[0] && b[0] == c[0] {
      LessTransitive(a[1..], b[1..], c[1..]);
    }
  }

  lemma {:induction false} LessTotal(a: string, b: string)
    requires a != b
    ensures Less(a, b) || Less(b, a)
    decreases |a|
  {
    if |a| > 0 && |b| > 0 && a[0] == b[0] {
      assert a == [a[0]] + a[1..] && b == [b[0]] + b[1..];
      LessTotal(a[1..], b[1..]);
    }
  }

  /** Ascending: no later element is smaller than an earlier one. */
  predicate Sorted(xs: seq<string>) {
    forall i, j :: 0 <= i < j < |xs| ==> !Less(xs[j], xs[i])
  }

  /** Strictly ascending. */
  predicate StrictlySorted(xs: seq<string>) {
    forall i, j :: 0 <= i < j < |xs| ==> Less(xs[i], xs[j])
  }

  /** Places `x` after every element not greater than it. */
  function Insert(x: string, xs: seq<string>): (r: seq<string>)
    requires Sorted(xs)
    ensures Sorted(r)
    ensures multiset(r) == multiset(xs) + multiset{x}
  {
    if |xs| == 0 then [x]
    else if Less(x, xs[0]) then
      InsertFront(x, xs);
      [x] + xs
    else
      var rest := Insert(x, xs[1..]);
      InsertBehind(x, xs, rest);
      assert xs == [xs[0]] + xs[1..];
      [xs[0]] + rest
  }

  lemma InsertFront(x: string, xs: seq<string>)
    requires Sorted(xs) && |xs| > 0 && Less(x, xs[0])
    ensures Sorted([x] + xs)
  {
    forall j | 0 < j < |[x] + xs|
      ensures !Less(([x] + xs)[j], x)
    {
      var y := xs[j - 1];
      if Less(y, x) {
        LessTransitive(y, x, xs[0]);
        LessIrreflexive(xs[0]);
      }
    }
  }

  lemma InsertBehind(x: string, xs: seq<string>, rest: seq<string>)
    requires Sorted(xs) && |xs| > 0 && !Less(x, xs[0])
    requires Sorted(rest) && multiset(rest) == multiset(xs[1..]) + multiset{x}
    ensures Sorted([xs[0]] + rest)
  {
    forall j | 0 <= j < |rest|
      ensures !Less(rest[j], xs[0])
    {
      assert rest[j] in multiset(rest);
      if rest[j] != x {
        assert rest[j] in multiset(xs[1..]);
        var k :| 0 <= k < |xs[1..]| && xs[1..][k] == rest[j];
        assert xs[k + 1] == rest[j];
      }
    }
  }

  /** `Array.prototype.sort` with the comparator: insertion sort, which
      yields the one ascending arrangement of the elements. */
  function Sort(xs: seq<string>): (r: seq<string>)
    ensures Sorted(r)
    ensures multiset(r) == multiset(xs)
  {
    if |xs| == 0 then []
    else
      assert xs == [xs[0]] + xs[1..];
      Insert(xs[0], Sort(xs[1..]))
  }

  /** Distinct elements sorted ascending are strictly ascending. */
  lemma SortedDistinct(xs: seq<string>)
    requires Sorted(xs) && NoDup(xs)
    ensures StrictlySorted(xs)
  {
    forall i, j | 0 <= i < j < |xs|
      ensures Less(xs[i], xs[j])
    {
      LessTotal(xs[i], xs[j]);
    }
  }

  /** Two ascending arrangements of the same elements are the same
      sequence: the output does not depend on the order the tags were met. */
  lemma {:induction false} SortedUnique(a: seq<string>, b: seq<string>)
    requires Sorted(a) && Sorted(b) && multiset(a) == multiset(b)
    ensures a == b
    decreases |a|
  {
    assert |a| == |multiset(a)| == |multiset(b)| == |b|;
    if |a| > 0 {
      assert a[0] in multiset(b) && b[0] in multiset(a);
      var i :| 0 <= i < |b| && b[i] == a[0];
      var j :| 0 <= j < |a| && a[j] == b[0];
      if a[0] != b[0] {
        LessTotal(a[0], b[0]);
        assert false;
      }
      MultisetTail(a, b);
      SortedUnique(a[1..], b[1..]);
    }
  }

  lemma MultisetTail(a: seq<string>, b: seq<string>)
    requires |a| > 0 && |b| > 0 && a[0] == b[0] && multiset(a) == multiset(b)
    ensures multiset(a[1..]) == multiset(b[1..])
  {
    assert a == [a[0]] + a[1..] && b == [b[0]] + b[1..];
    calc {
      multiset(a[1..]);
      multiset(a) - multiset{a[0]};
      multiset(b) - multiset{b[0]};
      multiset(b[1..]);
    }
  }

  // ---------------------------------------------------------------------
  // The handler

  /** The sorted list of distinct tags the handler emits for the rows. */
  function TagList(rows: seq<RawTags>): seq<string> {
    Sort(Collect([], rows))
  }

  /** What the database query did: returned an error, returned rows
      (`data` may be null), or threw (the thrown value's `message`, if any). */
  datatype Query =
    | QueryError(message: string)
    | QueryRows(data: Option<seq<RawTags>>)
    | QueryThrew(thrownMessage: Option<string>)

  const FALLBACK_ERROR: string := "Failed to load tags"

  datatype Response =
    | PlainText(body: string)
    | ServerError(message: string)            // status 500, JSON `{ error }`

  /** `GET`: a query error becomes a 500 carrying its message; otherwise the
      tag list joined with ", " as plain text, with null data read as no rows.
      A throw becomes a 500 with the thrown message, or a fixed one when
      that is missing or empty. */
  function Get(q: Query): (r: Response)
    ensures q.QueryError? ==> r == ServerError(q.message)
    ensures q.QueryThrew? ==> r.ServerError? && r.message != ""
    ensures q.QueryThrew? && Strings.Truthy(q.thrownMessage) ==> r.message == q.thrownMessage.value
    ensures q.QueryThrew? && !Strings.Truthy(q.thrownMessage) ==> r == ServerError(FALLBACK_ERROR)
    ensures r.PlainText? <==> q.QueryRows?
    ensures q.QueryRows? && q.data.None? ==> r == PlainText("")
    ensures q.QueryRows? && q.data.Some? ==> r == PlainText(Strings.Join(TagList(q.data.value), ", "))
  {
    match q
    case QueryError(message) => ServerError(message)
    case QueryRows(data) =>
      var rows := data.GetOr([]);
      PlainText(Strings.Join(TagList(rows), ", "))
    case QueryThrew(message) =>
      ServerError(if Strings.Truthy(message) then message.value else FALLBACK_ERROR)
  }

  /** The list the handler emits: each tag trimmed and non-empty, none
      twice, strictly ascending; a tag is emitted exactly when some row holds
      a string element whose trim it is. */
  lemma TagListSpec(rows: seq<RawTags>)
    ensures var out := TagList(rows);
      && (forall t :: t in out ==> IsCleanTag(t))
      && NoDup(out)
      && StrictlySorted(out)
      && (forall t :: t in out <==> exists i :: 0 <= i < |rows| && RowEmits(rows[i], t))
  {
    var c := Collect([], rows);
    var out := Sort(c);
    CollectKeeps([], rows);
    SameElements(c, out);
    PermutationNoDup(c, out);
    SortedDistinct(out);
  }

  lemma SameElements(a: seq<string>, b: seq<string>)
    requires multiset(a) == multiset(b)
    ensures forall t :: t in a <==> t in b
  {
    assert forall t :: t in a <==> t in multiset(a);
    assert forall t :: t in b <==> t in multiset(b);
  }

  /** A rearrangement of a duplicate-free sequence is duplicate-free. */
  lemma PermutationNoDup(a: seq<string>, b: seq<string>)
    requires multiset(a) == multiset(b) && NoDup(a)
    ensures NoDup(b)
  {
    forall i, j | 0 <= i < j < |b|
      ensures b[i] != b[j]
    {
      if b[i] == b[j] {
        TwoOccurrences(b, i, j);
        DistinctCount(a, b[i]);
      }
    }
  }

  lemma DistinctCount(xs: seq<string>, x: string)
    requires NoDup(xs)
    ensures multiset(xs)[x] <= 1
  {
    if |xs| > 0 {
      assert xs == [xs[0]] + xs[1..];
      DistinctCount(xs[1..], x);
    }
  }

  lemma TwoOccurrences(xs: seq<string>, i: nat, j: nat)
    requires i < j < |xs| && xs[i] == xs[j]
    ensures multiset(xs)[xs[i]] >= 2
  {
    assert xs == xs[..i] + [xs[i]] + xs[i + 1..j] + [xs[j]] + xs[j + 1..];
  }

  /** Every string element with a non-blank trim is listed, trimmed,
      whichever row it sits in. */
  lemma RowCompleteness(rows: seq<RawTags>, i: nat, j: nat)
    requires i < |rows| && j < |BookmarkTags(rows[i])|
    requires BookmarkTags(rows[i])[j].JString? && Strings.Trim(BookmarkTags(rows[i])[j].s) != ""
    ensures Strings.Trim(BookmarkTags(rows[i])[j].s) in TagList(rows)
  {
    TagListSpec(rows);
    assert RowEmits(rows[i], Strings.Trim(BookmarkTags(rows[i])[j].s));
  }

  /** With no rows, or only rows without usable tags (no elements, or only
      blank strings and non-strings), the body is empty. */
  lemma EmptyBody(rows: seq<RawTags>)
    requires forall i, t :: 0 <= i < |rows| ==> !RowEmits(rows[i], t)
    ensures Get(QueryRows(Some(rows))) == PlainText("")
  {
    TagListSpec(rows);
    NoMembersEmpty(TagList(rows));
  }

  /** A client splitting the body on ", " gets the tag list back whenever
      the list is non-empty and no tag contains a comma. */
  lemma BodySplitsBack(rows: seq<RawTags>)
    requires |TagList(rows)| > 0
    requires forall t :: t in TagList(rows) ==> ',' !in t
    ensures Strings.Split(Get(QueryRows(Some(rows))).body, ", ") == TagList(rows)
  {
    Strings.SplitJoin(TagList(rows), ", ");
  }

  /** An empty tag list does not split back: the empty body splits into
      one empty piece. */
  lemma EmptyBodySplitsToBlank(rows: seq<RawTags>)
    ensures TagList(rows) == [] ==> Strings.Split(Get(QueryRows(Some(rows))).body, ", ") == [""]
  {
    if TagList(rows) == [] {
      assert Strings.IndexOf("", ", ", 0).None?;
    }
  }
}

=== FILE: wrappers.dfy ===
/** The optional value used wherever the program reads something that may be
    absent: an unmounted element ref, an `Array.prototype.find` that found
    nothing, a destructured array slot past the end, a `URL` that failed to
    parse. */
module Wrappers {

  datatype Option<+T> = None | Some(value: T) {

    /** Returns the value held in Some, or `default` when None (JavaScript's `??`). */
    function GetOr(default: T): T {
      match this
      case Some(v) => v
      case None => default
    }
  }
}
